=== FILE: README.md ===
# Post store of mattermost-redux, in Dafny

This project models the post store of the mattermost-redux client library and proves what it promises:

- the reducer in `src/reducers/entities/posts.js`, which folds server responses and push events into a normalised cache;
- the records the post action creators in `src/actions/posts.js` dispatch.

The cache has four fields:

- `posts`: post id → post;
- `postsByChannel`: channel id → post ids, newest first;
- `selectedPostId`;
- `currentFocusedPostId`.

## Modules

- `Seqs` (`seqs.dfy`): `Option`, duplicate-freedom, and the two array operations the reducer uses, `indexOf` and `splice(k, 1)`.
- `PostModel` (`post_model.dfy`): the post, the server's post list `{order, posts}`, the transition records (`Action`), the store `State`, and the store invariants:
  - every listed id is stored (`AllIn`);
  - no channel lists an id twice (`Valid`).
- `Ordering` (`ordering.dfy`): the newest-first sort, as a stable insertion sort. The language has required `Array.prototype.sort` to be stable since ECMAScript 2019.
  - That the sort returns a permutation ordered by non-increasing `create_at` holds for any tie order.
  - `SortOfSortedIsIdentity`, and `ReceivedPostsIdempotent` through it, rely on stability: a sort that reorders equal `create_at` values breaks both.
- `CommentCascade` (`cascade.dfy`): the comment loop of a removal.
  - `Cascade` is the source's `for…of` with its implicit index, splicing the array it walks.
  - `RemoveComments` is the same loop as a `while` method.
  - `Survivors`/`Removed` is an independent "drop each examined comment, skip the element after it" filter.
  - The lemmas prove the three agree on every list that is duplicate-free and fully stored (every id a key of the posts map).
- `PostsReducer` (`reducer.dfy`): one handler per record type, the two focus-id sub-reducers, and `Reduce`.
  - A handler yields `None` exactly where the source throws a TypeError by reading a field of a post that is not stored; `Reduce` then yields `Throws`.
  - `ReduceAll` is a `batchActions` dispatch: a left fold that is all or nothing.
- `ReceivedProperties`, `StoreProperties` (`received_lemmas.dfy`, `store_lemmas.dfy`): the reducer's promises, stated on `Reduce`.
- `PostActions` (`actions.dfy`): each action creator as a function of:
  - its arguments;
  - the outcome of its client call, given as a parameter;
  - for the fetches, the user cache read by the author prefetch.

  The result is a `Run`: the client call, the dispatches in order, the author fetches started, and how the returned promise settles when no dispatch throws.
  - `Visible` flattens the dispatches into the records the reducer sees. The forced-logout check contributes the logout record exactly when the error forces a logout.
  - `Settle` gives how the promise settles once the records run on a given store. `dispatch` runs the reducer synchronously and does not catch what it throws, so a reducer throw rejects the promise.
- `ActionProperties` (`action_lemmas.dfy`): the creators' promises, stated by replaying their records through `Reduce`.

## Behaviour reproduced as written

Each item is followed by the lemma that exhibits it.

- **Stale guard.** The batch merge replaces a stored post only when the stored `update_at` is greater than the incoming one. So the batch merge never replaces a stored record with a newer one: across batches the store keeps the record with the smallest `update_at` it has seen, even though the code comment says the intent is to replace changed posts. A single-post record (`RECEIVED_POST`) is different: it overwrites the stored post unconditionally (`HandleReceivedPost`). (`StaleGuardKeepsOlderRecord`, `ReceivedPostsKeepsOldest`)
- **Soft delete keeps the message.** It sets the lifecycle flag, clears `file_ids` and clears `has_reactions`; `message` is kept. (`PostDeletedEffect`)
- **Skipped comments.** The comment loop walks the channel's ids after the removed post's own id has been spliced out. It skips the id that slides into the slot of a removed comment, so two comments that are adjacent in that list are not both removed. Comments that are adjacent only once the post's id is gone count too: `[c1, root, c2]` becomes `[c1, c2]`, and `c2` survives. (`RemovePostSkipsAdjacentComment`, `SurvivingCommentFollowsRemoved`)
- **Dangling ids on removal.** A removal cleans only the channel named by the record's `channel_id`. If another channel lists the post, it keeps a dangling id. (`RemovePostLeavesDanglingId`)
- **Throws.** The reducer throws in two places:
  - in the sort comparator, when a batch's channel lists two or more ids and one of them is not stored;
  - in the comment loop, at an id that is not stored.

  On a valid store neither happens. (`ReceivedPostsNeverThrows`, `RemovePostIsSkipFilter`)

  A throw escapes `dispatch` and rejects the promise of the creator that dispatched the record. After a removal has left an id dangling in another channel, a later fetch of that channel rejects when the channel lists two or more ids and the response does not bring the removed post back (so the sort compares the dangling id). (`FetchRejectsOnDanglingId`, `RemoveThenFetchRejects`)
- **Author prefetch.** The author lists keep duplicates, one entry per post. The prefetch is started, not awaited, so the creators' records do not wait for it. (`PrefetchListsAreExact`)
- **Incomplete cascade.** A removal does not always remove every comment of the post that the channel lists: a comment right after a removed one survives, adjacency being counted once the removed post's id is spliced out of the list. When no two comments are adjacent in that spliced list, all of them go. (`SurvivingCommentFollowsRemoved`, `CascadeCompleteWithoutAdjacentComments`, `RemovePostCompleteWithoutAdjacentComments`)

## Model

| member | source | states |
|---|---|---|
| Seqs.IndexOf | src/reducers/entities/posts.js:111-114 | the result is -1 exactly when the id is absent, and otherwise the position of its first occurrence |
| Seqs.Splice | src/reducers/entities/posts.js:123 | `splice(k, 1)` drops exactly the element at position `k`: the result is one shorter, keeps the elements before `k` in place and shifts the ones after it down by one |
| Seqs.NoDupsSplice | src/reducers/entities/posts.js:111-114 | splicing one element out of a duplicate-free array keeps it duplicate-free and drops that element |
| PostModel.Lookup | src/actions/posts.js:93 | `posts.posts[postId]` is found exactly when some entry has that key, and is that entry's post |
| PostModel.Values | src/reducers/entities/posts.js:41 | `Object.values` of the response's posts: one post per entry, in entry order, each the entry's post |
| PostModel.ChannelOrder | src/reducers/entities/posts.js:39 | a channel's ids are the stored sequence when the channel has one, and the empty sequence when it has none |
| Ordering.SortNewestFirst | src/reducers/entities/posts.js:57-66 | the sort returns a permutation (equal multisets) of the ids, ordered by non-increasing `create_at` |
| Ordering.InsertKeepsOrder | src/reducers/entities/posts.js:57-66 | inserting an id before the first one not newer than it keeps a newest-first sequence newest first |
| Ordering.SortKeepsDistinct | src/reducers/entities/posts.js:57-66 | sorting a duplicate-free id list keeps it duplicate-free |
| Ordering.SortOfSortedIsIdentity | src/reducers/entities/posts.js:57-66 | sorting an already newest-first list returns it unchanged |
| CommentCascade.SkipFilterSplits | src/reducers/entities/posts.js:116-126 | the skip filter removes only comments of the root that were listed; every listed id survives or is removed; survivors stay duplicate-free and disjoint from the removed ids |
| CommentCascade.CascadeIsSkipFilter | src/reducers/entities/posts.js:116-126 | on a duplicate-free, fully stored list, the splicing `for…of` loop never throws, and deletes exactly the skip filter's removed ids and leaves exactly its survivors |
| CommentCascade.SurvivingCommentFollowsRemoved | src/reducers/entities/posts.js:117-125 | a comment of the root that survives sits directly after a removed comment in the list the loop walks (the channel's ids with the removed post's id spliced out) |
| CommentCascade.CascadeCompleteWithoutAdjacentComments | src/reducers/entities/posts.js:117-125 | when no two comments of the root are adjacent in the list the loop walks (the channel's ids with the removed post's id spliced out), no comment of the root survives |
| CommentCascade.RemoveComments | src/reducers/entities/posts.js:117-126 | the explicit-index loop computes what `Cascade` computes, including the throw, and on valid input equals the skip filter |
| CommentCascade.Cascade | src/reducers/entities/posts.js:116-126 | when the loop finishes, it has only deleted keys, and only keys of comments of the root; every remaining post is unchanged; every id it leaves was listed |
| PostsReducer.HandleReceivedPost | src/reducers/entities/posts.js:7-31 | the post is stored under its id and no other entry changes; its channel gains the id at the head exactly when it did not list it, and is otherwise unchanged; other channels are untouched |
| PostsReducer.MergeOne | src/reducers/entities/posts.js:41-55 | one iteration: a deleted post changes nothing; otherwise its id becomes a key and is listed; the old list stays a prefix and grows by at most one id; the stored record never gets newer than the old one or the incoming one; the map is unchanged or updated at that id only; when the stored record's `update_at` is not greater than the incoming one (ties included) the map is unchanged, and when the id is unstored or the stored `update_at` is greater the incoming post is stored |
| PostsReducer.MergeBatch | src/reducers/entities/posts.js:41-55 | after the merge loop, the map's keys are the old keys plus the ids of the batch posts with `delete_at` not positive |
| PostsReducer.MergeFrame | src/reducers/entities/posts.js:41-49 | an entry whose id the batch does not accept is left as it was |
| PostsReducer.MergeSources | src/reducers/entities/posts.js:41-49 | every record after the merge is the old one, or an accepted batch post filed under its own id |
| PostsReducer.MergeNeverNewer | src/reducers/entities/posts.js:46-49 | the stale guard never makes a stored record's `update_at` larger |
| PostsReducer.MergeKeepsOldest | src/reducers/entities/posts.js:46-49 | the record kept for an accepted id has an `update_at` no larger than that of any accepted batch post with the id |
| PostsReducer.MergeOrder | src/reducers/entities/posts.js:39-55 | the working list is the channel's old ids unchanged, then accepted ids it did not list, each once; every accepted id is listed |
| PostsReducer.HandleReceivedPosts | src/reducers/entities/posts.js:33-71 | when the batch does not throw, the channel's new ids are a permutation of the merge's list, newest first when all are stored, and other channels are untouched |
| PostsReducer.HandlePostDeleted | src/reducers/entities/posts.js:73-93 | a stored post is soft-deleted field by field (flag, attachments, reactions; message and everything else kept); no other post and no channel changes; an unstored post is ignored |
| PostsReducer.SoftDeleted | src/reducers/entities/posts.js:83-87 | the copy is a soft delete of the post (state deleted, no attachments, no reactions; message, ids, times and author kept), and restoring those three fields gives back the original |
| PostsReducer.WithoutFirst | src/reducers/entities/posts.js:111-114 | the first occurrence of the id leaves the list (multiset minus one copy); an absent id leaves it unchanged; duplicate-freedom is kept |
| PostsReducer.HandleRemovePost | src/reducers/entities/posts.js:95-132 | an unstored post is a no-op; otherwise the post's id and possibly some others leave the map, the record's channel gets a new list, and no other channel changes |
| PostsReducer.HandlePosts | src/reducers/entities/posts.js:134-156 | only a batch or a removal can fail; logout yields two empty maps; the selection, request, success, failure, log and unrecognised records return both maps unchanged (the single-post and soft-delete records go to their handlers, which change the maps) |
| PostsReducer.SelectedPostId | src/reducers/entities/posts.js:158-167 | the selected id changes only on selection or logout; selection sets it to the record's id, logout to "" |
| PostsReducer.CurrentFocusedPostId | src/reducers/entities/posts.js:169-176 | the focused id changes only on logout, which sets it to "" |
| PostsReducer.Reduce | src/reducers/entities/posts.js:178-204 | only a batch or a removal throws; logout yields the empty store; the focused id survives every non-logout record, and the selected id every record except selection and logout |
| PostsReducer.ReduceAll | src/actions/posts.js:125-135 | a batched dispatch without batch or removal records never throws, and without a logout record it keeps the focused id |
| ReceivedProperties.ReceivedPostEffect | src/reducers/entities/posts.js:7-31 | a single post never throws, is stored over any old version, becomes the head of a channel that did not list it, and changes nothing else |
| ReceivedProperties.ReceivedPostKeepsValid | src/reducers/entities/posts.js:18-28 | the single-post path keeps every listed id stored and no id listed twice |
| ReceivedProperties.ReceivedPostKeepsOrder | src/reducers/entities/posts.js:20-27 | a post not older than everything its channel lists keeps the channel newest first |
| ReceivedProperties.MergedOrderShape | src/reducers/entities/posts.js:39-55 | the merge's list holds exactly the old ids and the accepted ids, all stored, and is duplicate-free when the old list was |
| ReceivedProperties.ReceivedPostsNeverThrows | src/reducers/entities/posts.js:57-66 | the comparator never reads a missing post while the channel's listed ids are stored |
| ReceivedProperties.ReceivedPostsEffect | src/reducers/entities/posts.js:33-71 | on a valid store, the map gains exactly the accepted ids; the channel lists its old ids and the accepted ids, each once, newest first; other channels and both focus ids are untouched |
| ReceivedProperties.ReceivedPostsKeepsValid | src/reducers/entities/posts.js:33-71 | the batch path keeps both store invariants |
| ReceivedProperties.ReceivedPostsKeepsOldest | src/reducers/entities/posts.js:41-49 | deleted batch posts never enter the store; no stored record gets newer; the record kept for an accepted id is no newer than the batch's post; every record is the old one or an accepted batch post |
| ReceivedProperties.StaleGuardKeepsOlderRecord | src/reducers/entities/posts.js:46-49 | a stored post with `update_at` 1 is kept against an incoming `update_at` 2, and replaced by an incoming `update_at` 0 |
| ReceivedProperties.MergeFixpoint | src/reducers/entities/posts.js:41-55 | the merge changes nothing when every accepted post is already listed and stored no newer than itself |
| ReceivedProperties.AfterBatch | src/reducers/entities/posts.js:41-68 | after a batch, the channel is newest first (or has fewer than two ids), and every accepted batch post is listed and stored no newer than itself |
| ReceivedProperties.ReceivedPostsIdempotent | src/reducers/entities/posts.js:33-71 | receiving the same batch for the same channel a second time leaves the state as the first time left it |
| StoreProperties.PostDeletedEffect | src/reducers/entities/posts.js:73-93 | a soft delete keeps the message, rewrites only the three lifecycle fields of the stored post, keeps every channel's ids, and ignores an unstored post |
| StoreProperties.PostDeletedIdempotent | src/reducers/entities/posts.js:79-87 | deleting twice is deleting once |
| StoreProperties.PostDeletedKeepsValid | src/reducers/entities/posts.js:89-92 | a soft delete keeps both store invariants |
| StoreProperties.RemoveUnstoredIsNoOp | src/reducers/entities/posts.js:102-103 | removing a post the store does not hold returns the state unchanged |
| StoreProperties.RestStored | src/reducers/entities/posts.js:106-114 | on a valid store, the channel's ids without the removed post are duplicate-free and all stored in the map without it |
| StoreProperties.RemovePostIsSkipFilter | src/reducers/entities/posts.js:95-132 | on a valid store, removing a stored post deletes it and exactly the skip filter's removed comments, and gives the record's channel exactly the filter's survivors |
| StoreProperties.RemovePostCompleteWithoutAdjacentComments | src/reducers/entities/posts.js:95-132 | on a valid store, when no two comments of the removed post are adjacent in the record channel's ids once the post's own id is spliced out, the removal does not throw, no comment of the post stays listed in that channel, and every listed comment is removed from the posts |
| StoreProperties.RemovePostRemovesOnlyComments | src/reducers/entities/posts.js:103-126 | on a valid store, a removal never throws; apart from the post itself it removes only posts whose `root_id` is the post's id; the posts that stay are unchanged |
| StoreProperties.SkipSteps | src/reducers/entities/posts.js:108-128 | with the channel listing two comments and then their root, removal deletes the root and the first comment, and leaves the second listed |
| StoreProperties.RemovePostSkipsAdjacentComment | src/reducers/entities/posts.js:117-125 | concretely, the second of two adjacent comments survives its root's removal |
| StoreProperties.RemovePostLeavesDanglingId | src/reducers/entities/posts.js:96-128 | on a valid store, when a channel other than the one the record names lists the post, the removal leaves that channel's ids as they were, drops the post from the map, and so leaves the store invalid |
| StoreProperties.DanglingIdExample | src/reducers/entities/posts.js:96-128 | a one-post store listing the post only under another channel is valid, and is invalid after the removal |
| StoreProperties.RemovePostKeepsValid | src/reducers/entities/posts.js:95-132 | a removal keeps both invariants when no other channel lists the post or its comments |
| StoreProperties.LogoutClears | src/reducers/entities/posts.js:145-172 | logout yields the empty store from any state |
| StoreProperties.SelectChangesOnlySelection | src/reducers/entities/posts.js:158-167 | selecting a post sets the selected id and changes nothing else |
| StoreProperties.UnrecognisedIsNoOp | src/reducers/entities/posts.js:196-201 | request, success, failure, log and unknown records leave the state equal to its input |
| StoreProperties.FocusIdsChangeOnlyWhenAsked | src/reducers/entities/posts.js:158-176 | the focused id changes only on logout; the selected id changes only on logout or selection |
| StoreProperties.OnlyBatchAndRemovalThrow | src/reducers/entities/posts.js:134-156 | only a batch or a removal can throw |
| StoreProperties.ReduceAllSplits | src/actions/posts.js:33-36 | a batched dispatch is the dispatch of its first part followed by the rest, and a throw anywhere throws the whole batch |
| StoreProperties.StepKeepsValid | src/reducers/entities/posts.js:134-156 | every record keeps a valid store valid, except a removal whose post or comments another channel lists |
| StoreProperties.BatchWithoutRemovalKeepsValid | src/reducers/entities/posts.js:178-204 | a batch without removals never throws on a valid store and leaves it valid |
| PostActions.Authors | src/actions/posts.js:242-244 | the authors are the posts' `user_id`s, one per post in key order |
| PostActions.MissingProfilesCount | src/actions/posts.js:242-248 | an author appears in the profile list once per post it wrote when its profile is not cached, and never otherwise |
| PostActions.MissingStatusesCount | src/actions/posts.js:250-252 | the same for the status list, where an empty status counts as missing |
| PostActions.IdsToLoad | src/actions/posts.js:236-253 | the `forEach` loop builds exactly the two reference lists |
| PostActions.PrefetchCalls | src/actions/posts.js:255-261 | a profile (status) fetch is started exactly when its list is non-empty, profiles first, and nothing else is fetched |
| PostActions.Settle | src/actions/posts.js:125-137 | the promise rejects exactly when the creator's own code rejects or replaying its records throws; otherwise it settles as the creator's code says |
| PostActions.DeletePost | src/actions/posts.js:25-50 | calls the client with the post id, starts no fetch and resolves undefined; on success it dispatches the request, then the soft delete and the success record together in one batch; on failure it dispatches the request, the forced-logout check and one batch of the failure and log records, so the reducer sees the request, any forced logout, the failure and the log record |
| PostActions.GetPostThread | src/actions/posts.js:76-106 | on failure, the request, the forced-logout check and one batch of the failure and log records, no fetch, undefined; on success, the author fetches; the promise rejects with only the request dispatched when the response lacks the post, and otherwise the request is followed by one batch of the post list, filed under that post's channel, and the success record |
| PostActions.ChannelFetch | src/actions/posts.js:108-138 | the shared shape of the channel fetches: on failure, the request, the forced-logout check and one batch of the failure and log records, no fetch, null; on success, the author fetches, then the request followed by one batch of the post list for the channel and the success record, resolving with the response |
| PostActions.GetPosts | src/actions/posts.js:108-138 | `getPosts`'s call carries channel, page and page size; on success it dispatches the request and then one batch of the post list for that channel and the success record, resolving with the response; on failure the request, the forced-logout check and one batch of the failure and log records, resolving with null |
| PostActions.GetPostsSince | src/actions/posts.js:140-170 | the same dispatches (request, then one batch of list and success record, or the failure batch) and settlements, for the call with channel and time |
| PostActions.GetPostsBefore | src/actions/posts.js:172-202 | the same dispatches (request, then one batch of list and success record, or the failure batch) and settlements, for the call with channel, post, page and page size |
| PostActions.GetPostsAfter | src/actions/posts.js:204-234 | the same dispatches (request, then one batch of list and success record, or the failure batch) and settlements, for the call with channel, post, page and page size |
| PostActions.RemovePostLocally | src/actions/posts.js:264-271 | no client call and no fetch; the reducer sees exactly the removal record; the creator's code resolves undefined |
| PostActions.SelectPost | src/actions/posts.js:273-280 | no client call and no fetch; the reducer sees exactly the selection record; resolves undefined |
| PostActions.FlagPost | src/actions/posts.js:62-74 | saves, for the current user, exactly one preference: flagged-post category, named by the post id, valued "true" |
| PostActions.UnflagPost | src/actions/posts.js:282-293 | deletes, for the current user, exactly one preference with the same key and no value |
| ActionProperties.PassThroughBatchIsNoOp | src/reducers/entities/posts.js:150-155 | a batch of records the reducer does not act on leaves the state as it was |
| ActionProperties.DeleteRequestFirst | src/actions/posts.js:25-27 | `deletePost` calls the client and dispatches its request record first and no request record after it |
| ActionProperties.ThreadRequestFirst | src/actions/posts.js:76-78 | the same for `getPostThread` |
| ActionProperties.ChannelFetchRequestFirst | src/actions/posts.js:108-110 | the same for the four channel fetches |
| ActionProperties.FailureContract | src/actions/posts.js:113-123 | on a client failure, each of the six creators dispatches the request record, the forced-logout check and one batch of failure and log records; it starts no author fetch; `deletePost`/`getPostThread` resolve undefined and the channel fetches resolve null |
| ActionProperties.FailureReplay | src/actions/posts.js:116-123 | replaying a failed run leaves the post store as it was, or empty when the error forces a logout; no record is a post record; the promise settles as the creator says |
| ActionProperties.ChannelFetchFills | src/actions/posts.js:125-137 | replaying a successful channel fetch on a valid store gives the channel its old ids plus the accepted ids, each once, newest first, keeps the store valid, and resolves with the response |
| ActionProperties.FetchRejectsOnDanglingId | src/actions/posts.js:125-137 | when the channel lists two or more ids and one of them is held by neither the store nor the response, the creator's code would resolve with the response, but the promise rejects |
| ActionProperties.RemoveThenFetchRejects | src/actions/posts.js:125-137 | from a valid store, a removal naming another channel than one listing the post, followed by a fetch of that channel, rejects when that channel lists two or more ids and the response lacks the post |
| ActionProperties.ChannelFetchesAreChannelFetch | src/actions/posts.js:108-234 | `getPosts`, `getPostsSince`, `getPostsBefore` and `getPostsAfter` share one shape, differing only in their client call and its arguments |
| ActionProperties.ThreadUsesPostChannel | src/actions/posts.js:93-104 | the thread's batch is filed under the channel of a response entry keyed by the requested post id |
| ActionProperties.ThreadSettles | src/actions/posts.js:86-105 | replayed on a valid store, a successful thread fetch resolves exactly when the response holds the requested post, and rejects otherwise |
| ActionProperties.DeleteSoftDeletes | src/actions/posts.js:40-48 | replaying a successful delete soft-deletes the stored copy, leaves every channel's ids alone, and resolves |
| ActionProperties.LocalCreatorsDispatchOneRecord | src/actions/posts.js:264-280 | replaying `removePost` is the removal, and it rejects exactly when the removal throws, never on a valid store; replaying `selectPost` sets only the selected id and always resolves |
| ActionProperties.FlagAndUnflagShareKey | src/actions/posts.js:62-74 | flag saves and unflag deletes the same preference key (current user, flagged-post category, post id); only the saved one carries the value "true" |
| ActionProperties.FlagThenUnflag | src/actions/posts.js:282-293 | in any saved-preference store, flagging leaves the post's flagged-post key valued "true" and every other key as it was; unflagging afterwards drops that key, leaving every other preference as before the flag |
| ActionProperties.PrefetchListsAreExact | src/actions/posts.js:236-253 | for a response, each author is listed once per post exactly when its profile (status) is missing |

## Left out

- The client transport (`Client4`). Each call's outcome is a parameter (`Reply`, `Ack`).
- How `forceLogoutIfNecessary` decides. Its module is not part of this model, so the decision is the error's `forcesLogout` flag; when it is set, the check dispatches the logout record.
- What `getLogErrorAction` builds. It is the opaque `LogError(error)` record.
- What `savePreferences`/`deletePreferences` and `getProfilesByIds`/`getStatusesByIds` do. Only the calls are modelled. The preferences module is not part of this model; `ApplyPreferences` is the assumed effect of a preference call on the saved preferences (saving sets a key, deleting drops it), and `FlagThenUnflag` is stated against it.
- `createPost` and `editPost`. They go through `bindClientFunc`, whose source is not part of this model.
- The defaults `page = 0` and `perPage = Posts.POST_CHUNK_SIZE`. The constants module is not part of this model, so `page` and `perPage` are explicit arguments.
- The values of the constants `Posts.POST_DELETED` and `Preferences.CATEGORY_FLAGGED_POST`. They are not part of this model: the deleted flag is the `Deleted` constructor and the category is the string "flagged_post".
- Timing. Interleaving with other dispatches and the unawaited prefetch are outside the model, as is the order in which the statuses fetch waits for the profiles fetch.
- Object identity. The default export's reference check becomes value equality (`UnrecognisedIsNoOp`). For a batch, no reference stability is claimed.
- Sorts that are not stable, as engines before ECMAScript 2019 could be. The model sort is stable, and `SortOfSortedIsIdentity` and `ReceivedPostsIdempotent` rely on it.
- `Object.values` order for integer-like keys. The response's entries are taken in the order given.
- A response whose `posts` object repeats a key. JavaScript objects cannot do this; `Lookup` takes the first entry with the key.
- `src/actions/general.js` and the websocket test. They are transport plumbing and integration tests against a live server.
- PostsReducer.HandleRemovePost: its own contract states only that keys shrink and which channels change. The full outcome is stated, under the store invariants, by `RemovePostIsSkipFilter`, because the loop can throw on invalid stores.
- PostsReducer.HandleReceivedPosts: its own contract does not say when it throws. `ReceivedPostsNeverThrows` states the no-throw condition.

=== FILE: action_lemmas.dfy ===
/** What the action creators promise, stated by replaying the records they
    dispatch through the post reducer. */
module ActionProperties {
  import opened Seqs
  import opened PostModel
  import opened Ordering
  import opened PostsReducer
  import opened ReceivedProperties
  import opened StoreProperties
  import opened PostActions

  /** Records that leave the post store as it is. */
  lemma {:induction false} PassThroughBatchIsNoOp(s: State, actions: seq<Action>)
    requires forall i :: 0 <= i < |actions| ==> PassThrough(actions[i])
    ensures ReduceAll(s, actions) == Next(s)
    decreases |actions|
  {
    if actions != [] {
      UnrecognisedIsNoOp(s, actions[0]);
      PassThroughBatchIsNoOp(s, actions[1..]);
    }
  }

  /** A record between two pass-through records decides the replay alone. */
  lemma ReplayAround(s: State, a: Action, b: Action, c: Action)
    requires PassThrough(a) && PassThrough(c)
    ensures ReduceAll(s, [a, b, c]) == Reduce(s, b)
  {
    UnrecognisedIsNoOp(s, a);
    assert [a, b, c][1..] == [b, c];
    match Reduce(s, b)
    case Throws =>
    case Next(t) =>
      UnrecognisedIsNoOp(t, c);
      assert [b, c][1..] == [c];
      assert ReduceAll(t, [c]) == Next(t);
  }

  /** The creators that issue a client call, applied to their arguments. */
  predicate IsRemoteRun(run: Run, op: Op) {
    && run.call.Some? && |run.dispatched| >= 1 && run.dispatched[0] == Single(Request(op))
    && forall i, a :: 1 <= i < |run.dispatched| && a in Flat(run.dispatched[i]) ==> !a.Request?
  }

  /** Every remote-backed creator dispatches its request record first,
      whatever the call's outcome, and no request record after it. */
  lemma DeleteRequestFirst(post: Post, ack: Ack)
    ensures IsRemoteRun(DeletePost(post, ack), DeletePostOp)
  {
  }

  lemma ThreadRequestFirst(postId: string, reply: Reply, users: Users)
    ensures IsRemoteRun(GetPostThread(postId, reply, users), GetPostThreadOp)
  {
  }

  lemma ChannelFetchRequestFirst(op: Op, call: ClientCall, channelId: string, reply: Reply, users: Users)
    ensures IsRemoteRun(ChannelFetch(op, call, channelId, reply, users), op)
  {
  }

  /** The contract of a failed call: after the request record, the
      forced-logout check and one batch of the failure and the log record;
      no author fetch; no post record. */
  predicate FailedRun(run: Run, op: Op, error: ClientError) {
    && run.dispatched == [Single(Request(op)), LogoutCheck(error), Batch([Failed(op, error), LogError(error)])]
    && run.prefetch == []
  }

  lemma FailureContract(post: Post, postId: string, channelId: string, page: int, perPage: int,
                        since: int, error: ClientError, users: Users)
    ensures FailedRun(DeletePost(post, Refused(error)), DeletePostOp, error)
    ensures FailedRun(GetPostThread(postId, Err(error), users), GetPostThreadOp, error)
    ensures FailedRun(GetPosts(channelId, page, perPage, Err(error), users), GetPostsOp, error)
    ensures FailedRun(GetPostsSince(channelId, since, Err(error), users), GetPostsSinceOp, error)
    ensures FailedRun(GetPostsBefore(channelId, postId, page, perPage, Err(error), users), GetPostsBeforeOp, error)
    ensures FailedRun(GetPostsAfter(channelId, postId, page, perPage, Err(error), users), GetPostsAfterOp, error)
    ensures DeletePost(post, Refused(error)).completion == ResolvesUndefined
    ensures GetPostThread(postId, Err(error), users).completion == ResolvesUndefined
    ensures GetPosts(channelId, page, perPage, Err(error), users).completion == ResolvesNull
    ensures GetPostsSince(channelId, since, Err(error), users).completion == ResolvesNull
    ensures GetPostsBefore(channelId, postId, page, perPage, Err(error), users).completion == ResolvesNull
    ensures GetPostsAfter(channelId, postId, page, perPage, Err(error), users).completion == ResolvesNull
  {
  }

  /** Replaying a failed call: the post store is left as it was, unless
      the forced-logout check logs the user out, which empties it. The
      promise settles as the creator says, since none of these records
      can throw. */
  lemma FailureReplay(s: State, run: Run, op: Op, error: ClientError)
    requires FailedRun(run, op, error)
    ensures Visible(run.dispatched) == FailureRecords(op, error)
    ensures ReduceAll(s, Visible(run.dispatched)) == Next(if error.forcesLogout then Empty else s)
    ensures Settle(run, s) == run.completion
    ensures forall a :: a in Visible(run.dispatched) ==> !a.ReceivedPosts? && !a.PostDeleted? && !a.RemovePost?
  {
    VisibleOfThree(run.dispatched[0], run.dispatched[1], run.dispatched[2]);
    var tail := [Failed(op, error), LogError(error)];
    if error.forcesLogout {
      var records := [Request(op), LogoutSuccess] + tail;
      assert Visible(run.dispatched) == records;
      UnrecognisedIsNoOp(s, Request(op));
      LogoutClears(s);
      assert records[1..] == [LogoutSuccess] + tail;
      assert ([LogoutSuccess] + tail)[1..] == tail;
      PassThroughBatchIsNoOp(Empty, tail);
      assert ReduceAll(s, [LogoutSuccess] + tail) == ReduceAll(Empty, tail);
      assert ReduceAll(s, records) == ReduceAll(s, records[1..]);
    } else {
      PassThroughBatchIsNoOp(s, Visible(run.dispatched));
    }
  }

  /** A successful channel fetch, replayed on a valid store: the fetched
      channel then lists its old ids and the response's accepted ids, each
      once, newest first, and the promise resolves with the response. */
  lemma ChannelFetchFills(s: State, op: Op, call: ClientCall, channelId: string, list: PostList, users: Users)
    requires Valid(s)
    ensures var run := ChannelFetch(op, call, channelId, Ok(list), users);
      && Settle(run, s) == ResolvesPosts(list)
      && ReduceAll(s, Visible(run.dispatched)) == Reduce(s, ReceivedPosts(list, channelId))
      && ReduceAll(s, Visible(run.dispatched)).Next?
      && var t := ReduceAll(s, Visible(run.dispatched)).state;
         && Valid(t)
         && (forall x :: x in t.postsByChannel[channelId] <==>
               x in ChannelOrder(s.postsByChannel, channelId) || x in Accepted(Values(list)))
         && NoDups(t.postsByChannel[channelId])
         && NewestFirst(t.postsByChannel[channelId], t.posts)
  {
    ReplayAround(s, Request(op), ReceivedPosts(list, channelId), Succeeded(op));
    ReceivedPostsEffect(s, list, channelId);
  }

  /** A channel fetch on a store whose channel lists, among two or more
      ids, one that neither the store nor the response holds: the sort
      throws inside `dispatch`, so the promise rejects although the
      creator's own code would resolve it with the response. */
  lemma FetchRejectsOnDanglingId(s: State, op: Op, call: ClientCall, channelId: string, list: PostList,
                                 users: Users, x: string)
    requires |ChannelOrder(s.postsByChannel, channelId)| >= 2
    requires x in ChannelOrder(s.postsByChannel, channelId) && x !in s.posts && x !in Accepted(Values(list))
    ensures var run := ChannelFetch(op, call, channelId, Ok(list), users);
      run.completion == ResolvesPosts(list) && Settle(run, s) == Rejects
  {
    var m0 := Start(s, channelId);
    var m := MergeBatch(m0, Values(list));
    MergeOrder(m0, Values(list));
    var i :| 0 <= i < |m0.order| && m0.order[i] == x;
    assert m.order[i] == x && x !in m.posts;
    assert !AllIn(m.order, m.posts);
    ReplayAround(s, Request(op), ReceivedPosts(list, channelId), Succeeded(op));
  }

  /** That store is reachable from a valid one: a removal whose record names
      another channel than one listing the post leaves the id dangling, and
      a later fetch of that channel rejects. */
  lemma RemoveThenFetchRejects(s: State, p: Post, listedIn: string, op: Op, call: ClientCall, list: PostList,
                               users: Users)
    requires Valid(s) && p.id in s.posts
    requires listedIn != p.channelId && listedIn in s.postsByChannel && p.id in s.postsByChannel[listedIn]
    requires |s.postsByChannel[listedIn]| >= 2 && p.id !in Accepted(Values(list))
    ensures Reduce(s, RemovePost(p)).Next?
    ensures var t := Reduce(s, RemovePost(p)).state;
      var run := ChannelFetch(op, call, listedIn, Ok(list), users);
      run.completion == ResolvesPosts(list) && Settle(run, t) == Rejects
  {
    RemovePostLeavesDanglingId(s, p, listedIn);
    var t := Reduce(s, RemovePost(p)).state;
    FetchRejectsOnDanglingId(t, op, call, listedIn, list, users, p.id);
  }

  /** The four channel fetches are that shape, each with its own call. */
  lemma ChannelFetchesAreChannelFetch(channelId: string, postId: string, page: int, perPage: int, since: int,
                                      reply: Reply, users: Users)
    ensures GetPosts(channelId, page, perPage, reply, users).call == Some(GetPostsCall(channelId, page, perPage))
    ensures GetPostsSince(channelId, since, reply, users).call == Some(GetPostsSinceCall(channelId, since))
    ensures GetPostsBefore(channelId, postId, page, perPage, reply, users).call
         == Some(GetPostsBeforeCall(channelId, postId, page, perPage))
    ensures GetPostsAfter(channelId, postId, page, perPage, reply, users).call
         == Some(GetPostsAfterCall(channelId, postId, page, perPage))
    ensures GetPosts(channelId, page, perPage, reply, users)
         == ChannelFetch(GetPostsOp, GetPostsCall(channelId, page, perPage), channelId, reply, users)
    ensures GetPostsSince(channelId, since, reply, users)
         == ChannelFetch(GetPostsSinceOp, GetPostsSinceCall(channelId, since), channelId, reply, users)
    ensures GetPostsBefore(channelId, postId, page, perPage, reply, users)
         == ChannelFetch(GetPostsBeforeOp, GetPostsBeforeCall(channelId, postId, page, perPage), channelId, reply, users)
    ensures GetPostsAfter(channelId, postId, page, perPage, reply, users)
         == ChannelFetch(GetPostsAfterOp, GetPostsAfterCall(channelId, postId, page, perPage), channelId, reply, users)
  {
  }

  /** A thread fetch files the thread under the channel that the response
      gives for the requested post: that of a response entry keyed by the
      post id. */
  lemma ThreadUsesPostChannel(postId: string, list: PostList, users: Users)
    requires Lookup(list.posts, postId).Some?
    ensures var run := GetPostThread(postId, Ok(list), users);
      exists i :: 0 <= i < |list.posts| && list.posts[i].key == postId &&
        Visible(run.dispatched)[1] == ReceivedPosts(list, list.posts[i].post.channelId)
  {
    var post := Lookup(list.posts, postId).value;
    var i :| 0 <= i < |list.posts| && list.posts[i] == Entry(postId, post);
  }

  /** Replayed on a valid store, a successful thread fetch resolves exactly
      when the response holds the requested post. */
  lemma ThreadSettles(s: State, postId: string, list: PostList, users: Users)
    requires Valid(s)
    ensures Settle(GetPostThread(postId, Ok(list), users), s)
         == if Lookup(list.posts, postId).None? then Rejects else ResolvesUndefined
  {
    match Lookup(list.posts, postId)
    case None =>
    case Some(post) =>
      ReplayAround(s, Request(GetPostThreadOp), ReceivedPosts(list, post.channelId), Succeeded(GetPostThreadOp));
      ReceivedPostsNeverThrows(s, list, post.channelId);
  }

  /** A successful delete, replayed, soft-deletes the stored copy of the
      post, leaves every channel's ids alone and resolves. */
  lemma DeleteSoftDeletes(s: State, post: Post)
    ensures var run := DeletePost(post, Acked);
      && Settle(run, s) == ResolvesUndefined
      && ReduceAll(s, Visible(run.dispatched)) == Reduce(s, PostDeleted(post))
      && ReduceAll(s, Visible(run.dispatched)).state.postsByChannel == s.postsByChannel
      && (post.id in s.posts ==>
            SoftDeleteOf(s.posts[post.id], ReduceAll(s, Visible(run.dispatched)).state.posts[post.id]))
  {
    ReplayAround(s, Request(DeletePostOp), PostDeleted(post), Succeeded(DeletePostOp));
    PostDeletedEffect(s, post);
  }

  /** The two local creators make no client call and dispatch exactly the
      record the reducer acts on. `removePost` rejects exactly when the
      reducer throws, which a valid store rules out; `selectPost` always
      resolves. */
  lemma LocalCreatorsDispatchOneRecord(s: State, post: Post, postId: string)
    ensures ReduceAll(s, Visible(RemovePostLocally(post).dispatched)) == Reduce(s, RemovePost(post))
    ensures Settle(RemovePostLocally(post), s) == Rejects <==> Reduce(s, RemovePost(post)).Throws?
    ensures Valid(s) ==> Settle(RemovePostLocally(post), s) == ResolvesUndefined
    ensures ReduceAll(s, Visible(SelectPost(postId).dispatched)) == Next(s.(selectedPostId := postId))
    ensures Settle(SelectPost(postId), s) == ResolvesUndefined
  {
    SelectChangesOnlySelection(s, postId);
    assert ReduceAll(s.(selectedPostId := postId), []) == Next(s.(selectedPostId := postId));
    if Valid(s) {
      if post.id in s.posts {
        RemovePostRemovesOnlyComments(s, post);
      } else {
        RemoveUnstoredIsNoOp(s, post);
      }
    }
    match Reduce(s, RemovePost(post))
    case Throws =>
    case Next(t) => assert ReduceAll(t, []) == Next(t);
  }

  /** Flagging saves, and unflagging deletes, the same preference key: the
      current user, the flagged-post category and the post id. Only the
      saved one carries the value "true". */
  lemma FlagAndUnflagShareKey(currentUserId: string, postId: string)
    ensures var f := FlagPost(currentUserId, postId);
      var u := UnflagPost(currentUserId, postId);
      && f.SavePreferences? && u.DeletePreferences?
      && f.userId == u.userId == currentUserId
      && |f.preferences| == 1 && |u.preferences| == 1
      && f.preferences[0].(value := None) == u.preferences[0]
      && f.preferences[0].userId == currentUserId
      && f.preferences[0].category == FlaggedPostCategory
      && f.preferences[0].name == postId
      && f.preferences[0].value == Some("true")
  {
  }

  /** Flagging a post and then unflagging it, in any preference store:
      after the flag the post is flagged with "true", after the unflag the
      key is gone and every other preference is as it was before. */
  lemma {:induction false} FlagThenUnflag(store: PreferenceStore, currentUserId: string, postId: string)
    ensures var key := (currentUserId, FlaggedPostCategory, postId);
      var flagged := ApplyPreferences(store, FlagPost(currentUserId, postId));
      var unflagged := ApplyPreferences(flagged, UnflagPost(currentUserId, postId));
      && key in flagged && flagged[key] == "true"
      && flagged - {key} == store - {key}
      && unflagged == store - {key}
  {
    var key := (currentUserId, FlaggedPostCategory, postId);
    var f := FlagPost(currentUserId, postId);
    var u := UnflagPost(currentUserId, postId);
    var flagged := store[key := "true"];
    assert ApplyPreferences(store, f) == ApplyPreferences(flagged, f.(preferences := []));
    assert ApplyPreferences(flagged, u) == ApplyPreferences(flagged - {key}, u.(preferences := []));
    assert flagged - {key} == store - {key};
  }

  /** The prefetch lists, against the cache: an author is listed once per
      post it wrote exactly when the cache lacks it. */
  lemma PrefetchListsAreExact(list: PostList, users: Users, u: string)
    ensures multiset(MissingProfiles(Authors(list.posts), users))[u]
         == if ProfileMissing(users, u) then multiset(Authors(list.posts))[u] else 0
    ensures multiset(MissingStatuses(Authors(list.posts), users))[u]
         == if StatusMissing(users, u) then multiset(Authors(list.posts))[u] else 0
  {
    MissingProfilesCount(Authors(list.posts), users, u);
    MissingStatusesCount(Authors(list.posts), users, u);
  }
}

=== FILE: actions.dfy ===
/** The post action creators, as the records they dispatch. Each creator
    is a function of its arguments, of the outcome of its one client call
    (given, since the transport is outside this model) and, for the
    fetches, of the user cache the author prefetch reads. Its result is a
    `Run`: the client call it issues, the dispatches in order, the author
    fetches it starts, and how the returned promise settles. */
module PostActions {
  import opened Seqs
  import opened PostModel
  import opened PostsReducer

  // --------------------------------------------------------------- data

  /** The outcome of a client call that returns a post list. */
  datatype Reply = Ok(value: PostList) | Err(error: ClientError)

  /** The outcome of a client call whose value is ignored. */
  datatype Ack = Acked | Refused(error: ClientError)

  /** The client calls the creators issue, with their arguments. */
  datatype ClientCall =
    | DeletePostCall(postId: string)
    | GetPostThreadCall(postId: string)
    | GetPostsCall(channelId: string, page: int, perPage: int)
    | GetPostsSinceCall(channelId: string, since: int)
    | GetPostsBeforeCall(channelId: string, postId: string, page: int, perPage: int)
    | GetPostsAfterCall(channelId: string, postId: string, page: int, perPage: int)

  /** One call of `dispatch`: a single record, a `batchActions` batch, or
      the forced-logout check on a failure, which dispatches the logout
      record when the error forces a logout. */
  datatype Dispatched = Single(action: Action) | Batch(actions: seq<Action>) | LogoutCheck(error: ClientError)

  /** The author fetches the prefetch starts: `getProfilesByIds` and
      `getStatusesByIds`. */
  datatype FetchCall = GetProfilesByIds(userIds: seq<string>) | GetStatusesByIds(userIds: seq<string>)

  /** How the promise a creator returns settles when none of its dispatches
      throws. `Rejects` is the TypeError of reading a field of a post the
      response does not hold; `Settle` adds the throws of the reducer. */
  datatype Completion = ResolvesUndefined | ResolvesNull | ResolvesPosts(posts: PostList) | Rejects

  datatype Run = Run(call: Option<ClientCall>, dispatched: seq<Dispatched>, prefetch: seq<FetchCall>, completion: Completion)

  /** The user cache the prefetch reads: authors with a stored profile, and
      stored statuses (an empty status string counts as missing). */
  datatype Users = Users(profiles: set<string>, statuses: map<string, string>)

  // ------------------------------------------------------------ replay

  /** The records the forced-logout check dispatches. */
  function LogoutRecords(error: ClientError): (r: seq<Action>)
    ensures |r| <= 1 && (r != [] <==> error.forcesLogout)
    ensures forall a :: a in r ==> a == LogoutSuccess
  {
    if error.forcesLogout then [LogoutSuccess] else []
  }

  /** The records one dispatch hands the reducer: a batch its records in
      order. */
  function Flat(d: Dispatched): seq<Action> {
    match d
    case Single(a) => [a]
    case Batch(actions) => actions
    case LogoutCheck(error) => LogoutRecords(error)
  }

  /** The records the reducer sees, in dispatch order. */
  function Visible(ds: seq<Dispatched>): seq<Action>
    decreases |ds|
  {
    if ds == [] then [] else Flat(ds[0]) + Visible(ds[1..])
  }

  lemma VisibleOfOne(d0: Dispatched)
    ensures Visible([d0]) == Flat(d0)
  {
    assert [d0][1..] == [];
  }

  lemma VisibleOfTwo(d0: Dispatched, d1: Dispatched)
    ensures Visible([d0, d1]) == Flat(d0) + Flat(d1)
  {
    assert [d0, d1][1..] == [d1];
    VisibleOfOne(d1);
  }

  lemma VisibleOfThree(d0: Dispatched, d1: Dispatched, d2: Dispatched)
    ensures Visible([d0, d1, d2]) == Flat(d0) + Flat(d1) + Flat(d2)
  {
    assert [d0, d1, d2][1..] == [d1, d2];
    VisibleOfTwo(d1, d2);
  }

  /** The records of a failed call, as the reducer sees them. */
  function FailureRecords(op: Op, error: ClientError): seq<Action> {
    [Request(op)] + LogoutRecords(error) + [Failed(op, error), LogError(error)]
  }

  /** How the promise settles once the run's records are dispatched on the
      store `s`. `dispatch` runs the reducer synchronously and does not catch
      what it throws, so a reducer throw rejects the creator's promise. */
  function Settle(run: Run, s: State): (c: Completion)
    ensures c == Rejects <==> run.completion == Rejects || ReduceAll(s, Visible(run.dispatched)).Throws?
    ensures c != Rejects ==> c == run.completion
  {
    if ReduceAll(s, Visible(run.dispatched)).Throws? then Rejects else run.completion
  }

  // ------------------------------------------------------ author prefetch

  /** The author ids of the response's posts, in key order. */
  function Authors(entries: seq<Entry>): (r: seq<string>)
    ensures |r| == |entries|
    ensures forall i :: 0 <= i < |r| ==> r[i] == entries[i].post.userId
  {
    seq(|entries|, i requires 0 <= i < |entries| => entries[i].post.userId)
  }

  predicate ProfileMissing(users: Users, userId: string) {
    userId !in users.profiles
  }

  predicate StatusMissing(users: Users, userId: string) {
    userId !in users.statuses || users.statuses[userId] == ""
  }

  /** Reference definitions: the authors, in order and with repeats, whose
      profile (status) the cache lacks. */
  function MissingProfiles(ids: seq<string>, users: Users): seq<string>
    decreases |ids|
  {
    if ids == [] then []
    else
      var rest := MissingProfiles(ids[..|ids| - 1], users);
      if ProfileMissing(users, ids[|ids| - 1]) then rest + [ids[|ids| - 1]] else rest
  }

  function MissingStatuses(ids: seq<string>, users: Users): seq<string>
    decreases |ids|
  {
    if ids == [] then []
    else
      var rest := MissingStatuses(ids[..|ids| - 1], users);
      if StatusMissing(users, ids[|ids| - 1]) then rest + [ids[|ids| - 1]] else rest
  }

  /** Each author appears in the profile list once per post it wrote when
      its profile is missing, and not at all otherwise. */
  lemma {:induction false} MissingProfilesCount(ids: seq<string>, users: Users, u: string)
    ensures multiset(MissingProfiles(ids, users))[u] == if ProfileMissing(users, u) then multiset(ids)[u] else 0
    decreases |ids|
  {
    if ids != [] {
      var n := |ids| - 1;
      MissingProfilesCount(ids[..n], users, u);
      assert ids == ids[..n] + [ids[n]];
    }
  }

  lemma {:induction false} MissingStatusesCount(ids: seq<string>, users: Users, u: string)
    ensures multiset(MissingStatuses(ids, users))[u] == if StatusMissing(users, u) then multiset(ids)[u] else 0
    decreases |ids|
  {
    if ids != [] {
      var n := |ids| - 1;
      MissingStatusesCount(ids[..n], users, u);
      assert ids == ids[..n] + [ids[n]];
    }
  }

  /** The `forEach` over the response's keys that fills both lists. */
  method IdsToLoad(entries: seq<Entry>, users: Users) returns (profilesToLoad: seq<string>, statusesToLoad: seq<string>)
    ensures profilesToLoad == MissingProfiles(Authors(entries), users)
    ensures statusesToLoad == MissingStatuses(Authors(entries), users)
  {
    profilesToLoad := [];
    statusesToLoad := [];
    var i := 0;
    while i < |entries|
      invariant 0 <= i <= |entries|
      invariant profilesToLoad == MissingProfiles(Authors(entries)[..i], users)
      invariant statusesToLoad == MissingStatuses(Authors(entries)[..i], users)
    {
      var userId := entries[i].post.userId;
      assert Authors(entries)[..i + 1][..i] == Authors(entries)[..i];
      if ProfileMissing(users, userId) {
        profilesToLoad := profilesToLoad + [userId];
      }
      if StatusMissing(users, userId) {
        statusesToLoad := statusesToLoad + [userId];
      }
      i := i + 1;
    }
    assert Authors(entries)[..i] == Authors(entries);
  }

  /** The fetches the prefetch starts: each list is fetched only when it is
      not empty, profiles before statuses. */
  function PrefetchCalls(list: PostList, users: Users): (r: seq<FetchCall>)
    ensures var p := MissingProfiles(Authors(list.posts), users);
      var st := MissingStatuses(Authors(list.posts), users);
      && (GetProfilesByIds(p) in r <==> p != [])
      && (GetStatusesByIds(st) in r <==> st != [])
      && (forall f :: f in r ==> f == GetProfilesByIds(p) || f == GetStatusesByIds(st))
      && (p != [] && st != [] ==> r == [GetProfilesByIds(p), GetStatusesByIds(st)])
  {
    var p := MissingProfiles(Authors(list.posts), users);
    var st := MissingStatuses(Authors(list.posts), users);
    (if p != [] then [GetProfilesByIds(p)] else []) + (if st != [] then [GetStatusesByIds(st)] else [])
  }

  // ------------------------------------------------------------ creators

  /** The records of a failed call: the forced-logout check, then one batch
      of the failure record and the log record. */
  function FailureDispatches(op: Op, error: ClientError): seq<Dispatched> {
    [LogoutCheck(error), Batch([Failed(op, error), LogError(error)])]
  }

  /** `deletePost`. */
  function DeletePost(post: Post, ack: Ack): (r: Run)
    ensures r.call == Some(DeletePostCall(post.id)) && r.prefetch == [] && r.completion == ResolvesUndefined
    ensures ack.Acked? ==> r.dispatched == [Single(Request(DeletePostOp)), Batch([PostDeleted(post), Succeeded(DeletePostOp)])]
    ensures ack.Refused? ==> r.dispatched == [Single(Request(DeletePostOp))] + FailureDispatches(DeletePostOp, ack.error)
    ensures ack.Acked? ==> Visible(r.dispatched) == [Request(DeletePostOp), PostDeleted(post), Succeeded(DeletePostOp)]
    ensures ack.Refused? ==> Visible(r.dispatched) == FailureRecords(DeletePostOp, ack.error)
  {
    var request := [Single(Request(DeletePostOp))];
    match ack
    case Refused(error) =>
      VisibleOfThree(request[0], LogoutCheck(error), Batch([Failed(DeletePostOp, error), LogError(error)]));
      Run(Some(DeletePostCall(post.id)), request + FailureDispatches(DeletePostOp, error), [], ResolvesUndefined)
    case Acked =>
      var batch := Batch([PostDeleted(post), Succeeded(DeletePostOp)]);
      VisibleOfTwo(request[0], batch);
      Run(Some(DeletePostCall(post.id)), request + [batch], [], ResolvesUndefined)
  }

  /** `getPostThread`: the thread's records are tagged with the channel of
      the requested post as the response holds it; when the response does
      not hold it, the promise rejects after the prefetch has started. */
  function GetPostThread(postId: string, reply: Reply, users: Users): (r: Run)
    ensures r.call == Some(GetPostThreadCall(postId))
    ensures reply.Err? ==>
      r.prefetch == [] && r.completion == ResolvesUndefined && Visible(r.dispatched) == FailureRecords(GetPostThreadOp, reply.error)
    ensures reply.Err? ==> r.dispatched == [Single(Request(GetPostThreadOp))] + FailureDispatches(GetPostThreadOp, reply.error)
    ensures reply.Ok? && Lookup(reply.value.posts, postId).None? ==> r.dispatched == [Single(Request(GetPostThreadOp))]
    ensures reply.Ok? && Lookup(reply.value.posts, postId).Some? ==>
      r.dispatched == [Single(Request(GetPostThreadOp)),
                       Batch([ReceivedPosts(reply.value, Lookup(reply.value.posts, postId).value.channelId),
                              Succeeded(GetPostThreadOp)])]
    ensures reply.Ok? ==> r.prefetch == PrefetchCalls(reply.value, users)
    ensures reply.Ok? && Lookup(reply.value.posts, postId).None? ==>
      r.completion == Rejects && Visible(r.dispatched) == [Request(GetPostThreadOp)]
    ensures reply.Ok? && Lookup(reply.value.posts, postId).Some? ==>
      && r.completion == ResolvesUndefined
      && Visible(r.dispatched) == [Request(GetPostThreadOp),
                                   ReceivedPosts(reply.value, Lookup(reply.value.posts, postId).value.channelId),
                                   Succeeded(GetPostThreadOp)]
  {
    var call := Some(GetPostThreadCall(postId));
    var request := [Single(Request(GetPostThreadOp))];
    match reply
    case Err(error) =>
      VisibleOfThree(request[0], LogoutCheck(error), Batch([Failed(GetPostThreadOp, error), LogError(error)]));
      Run(call, request + FailureDispatches(GetPostThreadOp, error), [], ResolvesUndefined)
    case Ok(list) =>
      match Lookup(list.posts, postId)
      case None =>
        VisibleOfOne(request[0]);
        Run(call, request, PrefetchCalls(list, users), Rejects)
      case Some(post) =>
        var batch := Batch([ReceivedPosts(list, post.channelId), Succeeded(GetPostThreadOp)]);
        VisibleOfTwo(request[0], batch);
        Run(call, request + [batch], PrefetchCalls(list, users), ResolvesUndefined)
  }

  /** The common shape of the four channel fetches. */
  function ChannelFetch(op: Op, call: ClientCall, channelId: string, reply: Reply, users: Users): (r: Run)
    ensures r.call == Some(call)
    ensures reply.Err? ==> r.dispatched == [Single(Request(op))] + FailureDispatches(op, reply.error)
    ensures reply.Ok? ==> r.dispatched == [Single(Request(op)), Batch([ReceivedPosts(reply.value, channelId), Succeeded(op)])]
    ensures reply.Err? ==>
      r.prefetch == [] && r.completion == ResolvesNull && Visible(r.dispatched) == FailureRecords(op, reply.error)
    ensures reply.Ok? ==>
      && r.prefetch == PrefetchCalls(reply.value, users)
      && r.completion == ResolvesPosts(reply.value)
      && Visible(r.dispatched) == [Request(op), ReceivedPosts(reply.value, channelId), Succeeded(op)]
  {
    var request := [Single(Request(op))];
    match reply
    case Err(error) =>
      VisibleOfThree(request[0], LogoutCheck(error), Batch([Failed(op, error), LogError(error)]));
      Run(Some(call), request + FailureDispatches(op, error), [], ResolvesNull)
    case Ok(list) =>
      var batch := Batch([ReceivedPosts(list, channelId), Succeeded(op)]);
      VisibleOfTwo(request[0], batch);
      Run(Some(call), request + [batch], PrefetchCalls(list, users), ResolvesPosts(list))
  }

  function GetPosts(channelId: string, page: int, perPage: int, reply: Reply, users: Users): (r: Run)
    ensures r.call == Some(GetPostsCall(channelId, page, perPage))
    ensures reply.Ok? ==>
      r.completion == ResolvesPosts(reply.value) &&
      Visible(r.dispatched) == [Request(GetPostsOp), ReceivedPosts(reply.value, channelId), Succeeded(GetPostsOp)]
    ensures reply.Err? ==> r.completion == ResolvesNull && Visible(r.dispatched) == FailureRecords(GetPostsOp, reply.error)
    ensures reply.Ok? ==>
      r.dispatched == [Single(Request(GetPostsOp)), Batch([ReceivedPosts(reply.value, channelId), Succeeded(GetPostsOp)])]
    ensures reply.Err? ==> r.dispatched == [Single(Request(GetPostsOp))] + FailureDispatches(GetPostsOp, reply.error)
  {
    ChannelFetch(GetPostsOp, GetPostsCall(channelId, page, perPage), channelId, reply, users)
  }

  function GetPostsSince(channelId: string, since: int, reply: Reply, users: Users): (r: Run)
    ensures r.call == Some(GetPostsSinceCall(channelId, since))
    ensures reply.Ok? ==>
      r.completion == ResolvesPosts(reply.value) &&
      Visible(r.dispatched) == [Request(GetPostsSinceOp), ReceivedPosts(reply.value, channelId), Succeeded(GetPostsSinceOp)]
    ensures reply.Err? ==> r.completion == ResolvesNull && Visible(r.dispatched) == FailureRecords(GetPostsSinceOp, reply.error)
    ensures reply.Ok? ==>
      r.dispatched == [Single(Request(GetPostsSinceOp)), Batch([ReceivedPosts(reply.value, channelId), Succeeded(GetPostsSinceOp)])]
    ensures reply.Err? ==> r.dispatched == [Single(Request(GetPostsSinceOp))] + FailureDispatches(GetPostsSinceOp, reply.error)
  {
    ChannelFetch(GetPostsSinceOp, GetPostsSinceCall(channelId, since), channelId, reply, users)
  }

  function GetPostsBefore(channelId: string, postId: string, page: int, perPage: int, reply: Reply, users: Users): (r: Run)
    ensures r.call == Some(GetPostsBeforeCall(channelId, postId, page, perPage))
    ensures reply.Ok? ==>
      r.completion == ResolvesPosts(reply.value) &&
      Visible(r.dispatched) == [Request(GetPostsBeforeOp), ReceivedPosts(reply.value, channelId), Succeeded(GetPostsBeforeOp)]
    ensures reply.Err? ==> r.completion == ResolvesNull && Visible(r.dispatched) == FailureRecords(GetPostsBeforeOp, reply.error)
    ensures reply.Ok? ==>
      r.dispatched == [Single(Request(GetPostsBeforeOp)), Batch([ReceivedPosts(reply.value, channelId), Succeeded(GetPostsBeforeOp)])]
    ensures reply.Err? ==> r.dispatched == [Single(Request(GetPostsBeforeOp))] + FailureDispatches(GetPostsBeforeOp, reply.error)
  {
    ChannelFetch(GetPostsBeforeOp, GetPostsBeforeCall(channelId, postId, page, perPage), channelId, reply, users)
  }

  function GetPostsAfter(channelId: string, postId: string, page: int, perPage: int, reply: Reply, users: Users): (r: Run)
    ensures r.call == Some(GetPostsAfterCall(channelId, postId, page, perPage))
    ensures reply.Ok? ==>
      r.completion == ResolvesPosts(reply.value) &&
      Visible(r.dispatched) == [Request(GetPostsAfterOp), ReceivedPosts(reply.value, channelId), Succeeded(GetPostsAfterOp)]
    ensures reply.Err? ==> r.completion == ResolvesNull && Visible(r.dispatched) == FailureRecords(GetPostsAfterOp, reply.error)
    ensures reply.Ok? ==>
      r.dispatched == [Single(Request(GetPostsAfterOp)), Batch([ReceivedPosts(reply.value, channelId), Succeeded(GetPostsAfterOp)])]
    ensures reply.Err? ==> r.dispatched == [Single(Request(GetPostsAfterOp))] + FailureDispatches(GetPostsAfterOp, reply.error)
  {
    ChannelFetch(GetPostsAfterOp, GetPostsAfterCall(channelId, postId, page, perPage), channelId, reply, users)
  }

  /** `removePost` and `selectPost`: one local record, no client call. */
  function RemovePostLocally(post: Post): (r: Run)
    ensures r.call.None? && r.prefetch == [] && r.completion == ResolvesUndefined
    ensures Visible(r.dispatched) == [RemovePost(post)]
  {
    VisibleOfOne(Single(RemovePost(post)));
    Run(None, [Single(RemovePost(post))], [], ResolvesUndefined)
  }

  function SelectPost(postId: string): (r: Run)
    ensures r.call.None? && r.prefetch == [] && r.completion == ResolvesUndefined
    ensures Visible(r.dispatched) == [ReceivedPostSelected(postId)]
  {
    VisibleOfOne(Single(ReceivedPostSelected(postId)));
    Run(None, [Single(ReceivedPostSelected(postId))], [], ResolvesUndefined)
  }

  // ---------------------------------------------------- flag and unflag

  /** The preference category for flagged posts. */
  const FlaggedPostCategory := "flagged_post"

  datatype Preference = Preference(userId: string, category: string, name: string, value: Option<string>)

  /** The preference operation a creator delegates to. */
  datatype PreferenceCall =
    | SavePreferences(userId: string, preferences: seq<Preference>)
    | DeletePreferences(userId: string, preferences: seq<Preference>)

  /** `flagPost`: save one flagged-post preference of the current user. */
  function FlagPost(currentUserId: string, postId: string): (r: PreferenceCall)
    ensures r.SavePreferences? && r.userId == currentUserId && |r.preferences| == 1
    ensures forall p :: p in r.preferences ==>
      p.userId == currentUserId && p.category == FlaggedPostCategory && p.name == postId && p.value == Some("true")
  {
    SavePreferences(currentUserId, [Preference(currentUserId, FlaggedPostCategory, postId, Some("true"))])
  }

  /** `unflagPost`: delete that preference; the record carries no value. */
  function UnflagPost(currentUserId: string, postId: string): (r: PreferenceCall)
    ensures r.DeletePreferences? && r.userId == currentUserId && |r.preferences| == 1
    ensures forall p :: p in r.preferences ==>
      p.userId == currentUserId && p.category == FlaggedPostCategory && p.name == postId && p.value.None?
  {
    DeletePreferences(currentUserId, [Preference(currentUserId, FlaggedPostCategory, postId, None)])
  }

  /** A user's saved preferences, keyed by (user, category, name), as the
      server keeps them: saving sets a key's value, deleting drops the key. */
  type PreferenceStore = map<(string, string, string), string>

  function Key(p: Preference): (string, string, string) {
    (p.userId, p.category, p.name)
  }

  /** The effect of one preference call on the saved preferences, in list
      order. A saved preference without a value is stored as "". */
  function ApplyPreferences(store: PreferenceStore, call: PreferenceCall): (r: PreferenceStore)
    ensures call.DeletePreferences? ==> r == store - set p | p in call.preferences :: Key(p)
    ensures call.SavePreferences? ==> r.Keys == store.Keys + set p | p in call.preferences :: Key(p)
    decreases |call.preferences|
  {
    if call.preferences == [] then store
    else
      var p := call.preferences[0];
      var rest := call.(preferences := call.preferences[1..]);
      assert forall q :: q in call.preferences <==> q == p || q in rest.preferences;
      match call
      case SavePreferences(_, _) => ApplyPreferences(store[Key(p) := if p.value.Some? then p.value.value else ""], rest)
      case DeletePreferences(_, _) => ApplyPreferences(store - {Key(p)}, rest)
  }
}

=== FILE: cascade.dfy ===
/** The comment cascade of a post removal. The source walks the channel's
    id array with `for…of` while splicing matched ids out of that same
    array. The array iterator keeps its own index and advances it after
    every step, so after a splice the element that moved into the current
    slot is never looked at. `Cascade` is that loop written with an explicit
    index; `Survivors` is an independent description of its outcome ("drop
    each examined comment and skip the element after it"), and the lemmas
    connect the two. */
module CommentCascade {
  import opened Seqs
  import opened PostModel

  datatype Removal = Removal(posts: map<string, Post>, ids: seq<string>)

  /** `id` names a stored post that replies to `rootId`. */
  predicate IsComment(posts: map<string, Post>, rootId: string, id: string) {
    id in posts && posts[id].rootId == rootId
  }

  /** The loop from position `i` on. `None` is the TypeError the source
      raises when an examined id has no stored post. */
  function Cascade(posts: map<string, Post>, ids: seq<string>, rootId: string, i: nat): (r: Option<Removal>)
    ensures r.Some? ==> r.value.posts.Keys <= posts.Keys
    ensures r.Some? ==> forall k :: k in r.value.posts ==> r.value.posts[k] == posts[k]
    ensures r.Some? ==> forall k :: k in posts && k !in r.value.posts ==> posts[k].rootId == rootId
    ensures r.Some? ==> forall x :: x in r.value.ids ==> x in ids
    decreases |ids| - i
  {
    if i >= |ids| then Some(Removal(posts, ids))
    else
      var id := ids[i];
      if id !in posts then None
      else if posts[id].rootId == rootId then
        var k := IndexOf(ids, id);
        Cascade(posts - {id}, Splice(ids, k), rootId, i + 1)
      else Cascade(posts, ids, rootId, i + 1)
  }

  /** The ids the loop keeps, described without indices: an examined
      comment is dropped and the id right after it is kept unexamined. */
  function Survivors(posts: map<string, Post>, rootId: string, ids: seq<string>): seq<string>
    decreases |ids|
  {
    if ids == [] then []
    else if IsComment(posts, rootId, ids[0]) then
      if |ids| == 1 then [] else [ids[1]] + Survivors(posts, rootId, ids[2..])
    else [ids[0]] + Survivors(posts, rootId, ids[1..])
  }

  /** The ids the loop drops. */
  function Removed(posts: map<string, Post>, rootId: string, ids: seq<string>): set<string>
    decreases |ids|
  {
    if ids == [] then {}
    else if IsComment(posts, rootId, ids[0]) then
      {ids[0]} + (if |ids| == 1 then {} else Removed(posts, rootId, ids[2..]))
    else Removed(posts, rootId, ids[1..])
  }

  /** The dropped ids are comments of the root taken from `ids`, the kept ids
      are the rest of `ids` in their original order, and with distinct ids
      the two parts split `ids` exactly. */
  lemma {:induction false} SkipFilterSplits(posts: map<string, Post>, rootId: string, ids: seq<string>)
    ensures forall x :: x in Removed(posts, rootId, ids) ==> x in ids && IsComment(posts, rootId, x)
    ensures forall x :: x in Survivors(posts, rootId, ids) ==> x in ids
    ensures forall x :: x in ids ==> x in Survivors(posts, rootId, ids) || x in Removed(posts, rootId, ids)
    ensures NoDups(ids) ==> NoDups(Survivors(posts, rootId, ids))
    ensures NoDups(ids) ==> forall x :: x in Removed(posts, rootId, ids) ==> x !in Survivors(posts, rootId, ids)
    decreases |ids|
  {
    if ids != [] {
      var s := Survivors(posts, rootId, ids);
      if IsComment(posts, rootId, ids[0]) {
        if |ids| > 1 {
          SkipFilterSplits(posts, rootId, ids[2..]);
          assert ids == [ids[0], ids[1]] + ids[2..];
          if NoDups(ids) {
            assert NoDups(ids[2..]);
            assert ids[1] !in ids[2..];
            NoDupsCons(ids[1], Survivors(posts, rootId, ids[2..]));
          }
        }
      } else {
        SkipFilterSplits(posts, rootId, ids[1..]);
        assert ids == [ids[0]] + ids[1..];
        if NoDups(ids) {
          NoDupsTail(ids);
          NoDupsCons(ids[0], Survivors(posts, rootId, ids[1..]));
        }
      }
    }
  }

  /** The loop's standing assumption at position |done|: the ids still to
      walk are distinct and none of them was already settled. */
  predicate Apart(done: seq<string>, rest: seq<string>) {
    NoDups(rest) && forall i :: 0 <= i < |rest| ==> rest[i] !in done
  }

  /** One step of the loop on an examined comment `rest[0]`: it is spliced
      out of the array and deleted from the map, and the index moves past
      the id that slid into its slot. */
  lemma DropStep(posts: map<string, Post>, rootId: string, done: seq<string>, rest: seq<string>)
    requires Apart(done, rest) && |rest| > 0 && IsComment(posts, rootId, rest[0])
    ensures Cascade(posts, done + rest, rootId, |done|)
         == Cascade(posts - {rest[0]}, done + rest[1..], rootId, |done| + 1)
  {
    var ids := done + rest;
    var x := rest[0];
    assert ids[|done|] == x;
    assert x !in done;
    assert ids[..|done|] == done;
    assert IndexOf(ids, x) == |done|;
    assert Splice(ids, |done|) == done + rest[1..];
  }

  /** One step of the loop on an id `rest[0]` that is not a comment: the
      index just moves on. */
  lemma KeepStep(posts: map<string, Post>, rootId: string, done: seq<string>, rest: seq<string>)
    requires |rest| > 0 && rest[0] in posts && !IsComment(posts, rootId, rest[0])
    ensures Cascade(posts, done + rest, rootId, |done|)
         == Cascade(posts, (done + [rest[0]]) + rest[1..], rootId, |done + [rest[0]]|)
  {
    assert (done + rest)[|done|] == rest[0];
    assert done + rest == (done + [rest[0]]) + rest[1..];
  }

  /** Settling the first `n` ids of `rest` keeps the loop's assumption. */
  lemma ApartShift(done: seq<string>, rest: seq<string>, n: nat, settled: seq<string>)
    requires Apart(done, rest) && n <= |rest|
    requires forall i :: 0 <= i < |settled| ==> settled[i] in rest[..n]
    ensures Apart(done + settled, rest[n..])
  {
    var tail := rest[n..];
    forall i | 0 <= i < |tail| ensures tail[i] !in done + settled {
      assert tail[i] == rest[n + i];
      forall j | 0 <= j < |settled| ensures settled[j] != tail[i] {
        var k :| 0 <= k < n && rest[k] == settled[j];
      }
    }
  }

  /** The index loop, started at position |done| on the original map less
      the ids `gone` already deleted, ends with the skip filter applied to
      the remaining ids. */
  lemma {:induction false} CascadeFromIsSkipFilter(
    posts: map<string, Post>, gone: set<string>, rootId: string, done: seq<string>, rest: seq<string>)
    requires Apart(done, rest) && AllIn(rest, posts)
    requires forall i :: 0 <= i < |rest| ==> rest[i] !in gone
    ensures Cascade(posts - gone, done + rest, rootId, |done|)
         == Some(Removal(posts - (gone + Removed(posts, rootId, rest)), done + Survivors(posts, rootId, rest)))
    decreases |rest|, 1
  {
    if rest == [] {
      assert done + rest == done;
      assert gone + {} == gone;
    } else if IsComment(posts, rootId, rest[0]) {
      CascadeFromDrop(posts, gone, rootId, done, rest);
    } else {
      CascadeFromKeep(posts, gone, rootId, done, rest);
    }
  }

  /** The case of `CascadeFromIsSkipFilter` where the examined id is kept. */
  lemma {:induction false} CascadeFromKeep(
    posts: map<string, Post>, gone: set<string>, rootId: string, done: seq<string>, rest: seq<string>)
    requires Apart(done, rest) && AllIn(rest, posts)
    requires forall i :: 0 <= i < |rest| ==> rest[i] !in gone
    requires |rest| > 0 && !IsComment(posts, rootId, rest[0])
    ensures Cascade(posts - gone, done + rest, rootId, |done|)
         == Some(Removal(posts - (gone + Removed(posts, rootId, rest)), done + Survivors(posts, rootId, rest)))
    decreases |rest|, 0
  {
    var done' := done + [rest[0]];
    assert rest[0] in posts - gone;
    KeepStep(posts - gone, rootId, done, rest);
    ApartShift(done, rest, 1, [rest[0]]);
    assert forall i :: 0 <= i < |rest[1..]| ==> rest[1..][i] == rest[i + 1];
    CascadeFromIsSkipFilter(posts, gone, rootId, done', rest[1..]);
    assert Survivors(posts, rootId, rest) == [rest[0]] + Survivors(posts, rootId, rest[1..]);
    assert done' + Survivors(posts, rootId, rest[1..]) == done + Survivors(posts, rootId, rest);
  }

  /** The case of `CascadeFromIsSkipFilter` where the examined id is a comment. */
  lemma {:induction false} CascadeFromDrop(
    posts: map<string, Post>, gone: set<string>, rootId: string, done: seq<string>, rest: seq<string>)
    requires Apart(done, rest) && AllIn(rest, posts)
    requires forall i :: 0 <= i < |rest| ==> rest[i] !in gone
    requires |rest| > 0 && IsComment(posts, rootId, rest[0])
    ensures Cascade(posts - gone, done + rest, rootId, |done|)
         == Some(Removal(posts - (gone + Removed(posts, rootId, rest)), done + Survivors(posts, rootId, rest)))
    decreases |rest|, 0
  {
    var x := rest[0];
    DropStep(posts - gone, rootId, done, rest);
    if |rest| == 1 {
      DropLast(posts, gone, rootId, done, rest);
    } else {
      var done' := done + [rest[1]];
      var tail := rest[2..];
      DropNext(posts, gone, rootId, done, rest);
      CascadeFromIsSkipFilter(posts, gone + {x}, rootId, done', tail);
      CombineDrop(posts, gone, rootId, done, rest, Cascade(posts - (gone + {x}), done' + tail, rootId, |done'|));
    }
  }

  /** `CascadeFromDrop` when the comment is the last id: the loop stops. */
  lemma DropLast(posts: map<string, Post>, gone: set<string>, rootId: string, done: seq<string>, rest: seq<string>)
    requires |rest| == 1 && IsComment(posts, rootId, rest[0])
    ensures Cascade((posts - gone) - {rest[0]}, done + rest[1..], rootId, |done| + 1)
         == Some(Removal(posts - (gone + Removed(posts, rootId, rest)), done + Survivors(posts, rootId, rest)))
  {
    assert (posts - gone) - {rest[0]} == posts - (gone + {rest[0]});
    assert done + rest[1..] == done;
    assert Removed(posts, rootId, rest) == {rest[0]};
    assert Survivors(posts, rootId, rest) == [];
    assert done + [] == done;
  }

  /** `CascadeFromDrop` when more ids follow: the loop resumes after the
      skipped `rest[1]`, and the loop's assumption still holds there. */
  lemma DropNext(posts: map<string, Post>, gone: set<string>, rootId: string, done: seq<string>, rest: seq<string>)
    requires Apart(done, rest) && AllIn(rest, posts)
    requires forall i :: 0 <= i < |rest| ==> rest[i] !in gone
    requires |rest| > 1
    ensures Cascade((posts - gone) - {rest[0]}, done + rest[1..], rootId, |done| + 1)
         == Cascade(posts - (gone + {rest[0]}), (done + [rest[1]]) + rest[2..], rootId, |done + [rest[1]]|)
    ensures Apart(done + [rest[1]], rest[2..]) && AllIn(rest[2..], posts)
    ensures forall i :: 0 <= i < |rest[2..]| ==> rest[2..][i] !in gone + {rest[0]}
  {
    var x := rest[0];
    var tail := rest[2..];
    assert (posts - gone) - {x} == posts - (gone + {x});
    assert done + rest[1..] == (done + [rest[1]]) + tail;
    assert forall i :: 0 <= i < |tail| ==> tail[i] == rest[i + 2] && tail[i] != x;
    ApartShift(done, rest, 2, [rest[1]]);
  }

  /** Bookkeeping for `CascadeFromDrop`: the outcome after the dropped
      comment `rest[0]` and the skipped `rest[1]` is the outcome for `rest`. */
  lemma CombineDrop(posts: map<string, Post>, gone: set<string>, rootId: string,
                    done: seq<string>, rest: seq<string>, r: Option<Removal>)
    requires |rest| > 1 && IsComment(posts, rootId, rest[0])
    requires r == Some(Removal(posts - ((gone + {rest[0]}) + Removed(posts, rootId, rest[2..])),
                               (done + [rest[1]]) + Survivors(posts, rootId, rest[2..])))
    ensures r == Some(Removal(posts - (gone + Removed(posts, rootId, rest)), done + Survivors(posts, rootId, rest)))
  {
    var tail := rest[2..];
    assert Removed(posts, rootId, rest) == {rest[0]} + Removed(posts, rootId, tail);
    assert (gone + {rest[0]}) + Removed(posts, rootId, tail) == gone + Removed(posts, rootId, rest);
    assert Survivors(posts, rootId, rest) == [rest[1]] + Survivors(posts, rootId, tail);
    assert (done + [rest[1]]) + Survivors(posts, rootId, tail) == done + Survivors(posts, rootId, rest);
  }

  /** On distinct ids that all have stored posts, the splicing loop never
      throws and amounts to the skip filter: it keeps exactly `Survivors`
      and deletes exactly `Removed` from the post map. */
  lemma CascadeIsSkipFilter(posts: map<string, Post>, rootId: string, ids: seq<string>)
    requires NoDups(ids) && AllIn(ids, posts)
    ensures Cascade(posts, ids, rootId, 0)
         == Some(Removal(posts - Removed(posts, rootId, ids), Survivors(posts, rootId, ids)))
  {
    var none: seq<string> := [];
    assert none + ids == ids;
    assert posts - {} == posts;
    CascadeFromIsSkipFilter(posts, {}, rootId, none, ids);
    assert {} + Removed(posts, rootId, ids) == Removed(posts, rootId, ids);
    assert none + Survivors(posts, rootId, ids) == Survivors(posts, rootId, ids);
  }

  /** The skipped element: a comment survives only when the id right before
      it was a dropped comment. */
  lemma {:induction false} SurvivingCommentFollowsRemoved(posts: map<string, Post>, rootId: string, ids: seq<string>, x: string)
    requires x in Survivors(posts, rootId, ids) && IsComment(posts, rootId, x)
    ensures exists j :: 0 < j < |ids| && ids[j] == x && ids[j - 1] in Removed(posts, rootId, ids)
    decreases |ids|
  {
    if IsComment(posts, rootId, ids[0]) {
      if x == ids[1] {
        assert ids[0] in Removed(posts, rootId, ids);
      } else {
        var tail := ids[2..];
        SurvivingCommentFollowsRemoved(posts, rootId, tail, x);
        var j :| 0 < j < |tail| && tail[j] == x && tail[j - 1] in Removed(posts, rootId, tail);
        assert ids[j + 2] == x && ids[j + 1] == tail[j - 1];
      }
    } else {
      var tail := ids[1..];
      SurvivingCommentFollowsRemoved(posts, rootId, tail, x);
      var j :| 0 < j < |tail| && tail[j] == x && tail[j - 1] in Removed(posts, rootId, tail);
      assert ids[j + 1] == x && ids[j] == tail[j - 1];
    }
  }

  /** Hence the cascade is complete when no two comments of the root are
      adjacent in the sequence. */
  lemma CascadeCompleteWithoutAdjacentComments(posts: map<string, Post>, rootId: string, ids: seq<string>)
    requires forall j :: 0 < j < |ids| ==> !(IsComment(posts, rootId, ids[j - 1]) && IsComment(posts, rootId, ids[j]))
    ensures forall x :: x in Survivors(posts, rootId, ids) ==> !IsComment(posts, rootId, x)
  {
    SkipFilterSplits(posts, rootId, ids);
    forall x | x in Survivors(posts, rootId, ids)
      ensures !IsComment(posts, rootId, x)
    {
      if IsComment(posts, rootId, x) {
        SurvivingCommentFollowsRemoved(posts, rootId, ids, x);
      }
    }
  }

  /** The same loop as `Cascade`, written as the source writes it: one index
      that advances on every step, splicing matched ids out of the array
      being walked. `ok` is false where the source throws. */
  method RemoveComments(posts: map<string, Post>, ids: seq<string>, rootId: string)
    returns (ok: bool, posts': map<string, Post>, ids': seq<string>)
    ensures Cascade(posts, ids, rootId, 0) == (if ok then Some(Removal(posts', ids')) else None)
    ensures NoDups(ids) && AllIn(ids, posts) ==>
      ok && posts' == posts - Removed(posts, rootId, ids) && ids' == Survivors(posts, rootId, ids)
  {
    if NoDups(ids) && AllIn(ids, posts) {
      CascadeIsSkipFilter(posts, rootId, ids);
    }
    posts', ids' := posts, ids;
    var i := 0;
    while i < |ids'|
      invariant Cascade(posts, ids, rootId, 0) == Cascade(posts', ids', rootId, i)
      decreases |ids'| - i
    {
      var id := ids'[i];
      if id !in posts' {
        return false, posts', ids';
      }
      if posts'[id].rootId == rootId {
        posts' := posts' - {id};
        var k := IndexOf(ids', id);
        ids' := Splice(ids', k);
      }
      i := i + 1;
    }
    ok := true;
  }
}

=== FILE: ordering.dfy ===
/** The ordering of a channel's ids: most recent `create_at` first. The
    source sorts with `Array.prototype.sort` and a comparator that reports
    ties as equal. The model sorts with a stable insertion sort, as the
    language has required of `sort` since ECMAScript 2019. `SortNewestFirst`
    and the order lemmas hold for any tie order; `SortOfSortedIsIdentity`,
    and `ReceivedPostsIdempotent` through it, rely on stability. */
module Ordering {
  import opened Seqs
  import opened PostModel

  /** `create_at` never increases along `ids`. */
  predicate NewestFirst(ids: seq<string>, posts: map<string, Post>) {
    AllIn(ids, posts) &&
    forall i, j :: 0 <= i < j < |ids| ==> posts[ids[i]].createAt >= posts[ids[j]].createAt
  }

  /** A newest-first sequence stays newest first under a new head that is
      not older than the old head. */
  lemma NewestFirstCons(x: string, s: seq<string>, posts: map<string, Post>)
    requires x in posts
    ensures NewestFirst(s, posts) && (s != [] ==> posts[x].createAt >= posts[s[0]].createAt)
      ==> NewestFirst([x] + s, posts)
  {
    if NewestFirst(s, posts) && (s != [] ==> posts[x].createAt >= posts[s[0]].createAt) {
      var r := [x] + s;
      forall i, j | 0 <= i < j < |r|
        ensures posts[r[i]].createAt >= posts[r[j]].createAt
      {
        if i == 0 && j > 1 {
          assert r[j] == s[j - 1];
        }
      }
    }
  }

  /** Insert `x` before the first id that is not newer than it. */
  function Insert(x: string, s: seq<string>, posts: map<string, Post>): (r: seq<string>)
    requires x in posts && AllIn(s, posts)
    ensures |r| == |s| + 1 && AllIn(r, posts)
    ensures multiset(r) == multiset(s) + multiset{x}
    ensures r[0] == x || (s != [] && r[0] == s[0])
  {
    if s == [] || posts[x].createAt >= posts[s[0]].createAt then
      [x] + s
    else
      assert s == [s[0]] + s[1..];
      [s[0]] + Insert(x, s[1..], posts)
  }

  lemma {:induction false} InsertKeepsOrder(x: string, s: seq<string>, posts: map<string, Post>)
    requires x in posts && NewestFirst(s, posts)
    ensures NewestFirst(Insert(x, s, posts), posts)
  {
    if s == [] || posts[x].createAt >= posts[s[0]].createAt {
      NewestFirstCons(x, s, posts);
    } else {
      InsertKeepsOrder(x, s[1..], posts);
      NewestFirstCons(s[0], Insert(x, s[1..], posts), posts);
    }
  }

  lemma InsertKeepsDistinct(x: string, s: seq<string>, posts: map<string, Post>)
    requires x in posts && AllIn(s, posts)
    requires NoDups(s) && x !in s
    ensures NoDups(Insert(x, s, posts))
  {
    if s == [] || posts[x].createAt >= posts[s[0]].createAt {
      NoDupsCons(x, s);
    } else {
      var t := Insert(x, s[1..], posts);
      InsertKeepsDistinct(x, s[1..], posts);
      assert s[0] !in multiset(t);
      NoDupsCons(s[0], t);
    }
  }

  /** The newest-first sort of `ids`. */
  function SortNewestFirst(ids: seq<string>, posts: map<string, Post>): (r: seq<string>)
    requires AllIn(ids, posts)
    ensures |r| == |ids|
    ensures multiset(r) == multiset(ids)
    ensures NewestFirst(r, posts)
  {
    if ids == [] then []
    else
      var t := SortNewestFirst(ids[1..], posts);
      InsertKeepsOrder(ids[0], t, posts);
      assert ids == [ids[0]] + ids[1..];
      Insert(ids[0], t, posts)
  }

  lemma {:induction false} SortKeepsDistinct(ids: seq<string>, posts: map<string, Post>)
    requires AllIn(ids, posts) && NoDups(ids)
    ensures NoDups(SortNewestFirst(ids, posts))
  {
    if ids != [] {
      var t := SortNewestFirst(ids[1..], posts);
      NoDupsTail(ids);
      SortKeepsDistinct(ids[1..], posts);
      assert ids[0] !in multiset(t);
      InsertKeepsDistinct(ids[0], t, posts);
    }
  }

  /** Sorting an already ordered sequence leaves it as it is. */
  lemma {:induction false} SortOfSortedIsIdentity(ids: seq<string>, posts: map<string, Post>)
    requires NewestFirst(ids, posts)
    ensures SortNewestFirst(ids, posts) == ids
  {
    if ids != [] {
      assert NewestFirst(ids[1..], posts);
      SortOfSortedIsIdentity(ids[1..], posts);
      assert ids == [ids[0]] + ids[1..];
    }
  }
}

=== FILE: post_model.dfy ===
/** The entities of the post store: a post, the server's post list, the
    transition records ("actions") the reducer consumes, and the store
    state itself. Field names follow the server's JSON in camel case
    (`channel_id` becomes `channelId`, `update_at` becomes `updateAt`). */
module PostModel {
  import opened Seqs

  /** The client-visible lifecycle flag. Live posts carry no flag; a soft
      delete sets it to the deleted constant of the `Posts` constants. */
  datatype PostState = Live | Deleted

  datatype Post = Post(
    id: string,
    channelId: string,
    /** The thread root a comment replies to; empty for a top-level post. */
    rootId: string,
    userId: string,
    createAt: int,
    updateAt: int,
    deleteAt: int,
    message: string,
    fileIds: seq<string>,
    hasReactions: bool,
    state: PostState
  )

  /** One key/value pair of the `posts` object of a server response, in the
      object's iteration order. The key is normally the post's id, but the
      reducer reads the id from the post itself. */
  datatype Entry = Entry(key: string, post: Post)

  /** A server response `{order, posts}`. */
  datatype PostList = PostList(order: seq<string>, posts: seq<Entry>)

  /** `Object.values(list.posts)`. */
  function Values(list: PostList): (r: seq<Post>)
    ensures |r| == |list.posts|
    ensures forall i :: 0 <= i < |r| ==> r[i] == list.posts[i].post
  {
    seq(|list.posts|, i requires 0 <= i < |list.posts| => list.posts[i].post)
  }

  /** `list.posts[key]`: the value stored under `key`, if any. */
  function Lookup(entries: seq<Entry>, key: string): (r: Option<Post>)
    ensures r.Some? <==> exists i :: 0 <= i < |entries| && entries[i].key == key
    ensures r.Some? ==> exists i :: 0 <= i < |entries| && entries[i] == Entry(key, r.value)
  {
    if entries == [] then None
    else if entries[0].key == key then Some(entries[0].post)
    else
      var r := Lookup(entries[1..], key);
      assert forall i :: 1 <= i < |entries| ==> entries[i] == entries[1..][i - 1];
      r
  }

  /** An error raised by the transport. `forcesLogout` records whether
      `forceLogoutIfNecessary` logs the user out on it: that helper decides
      from the error, and its module is not part of this model. */
  datatype ClientError = ClientError(message: string, forcesLogout: bool)

  /** The remote-backed operations whose request/success/failure records
      the action creators emit. */
  datatype Op = DeletePostOp | GetPostThreadOp | GetPostsOp | GetPostsSinceOp | GetPostsBeforeOp | GetPostsAfterOp

  /** The transition records. The first six are the ones the post reducer
      reacts to; the rest pass through it unchanged. */
  datatype Action =
    | ReceivedPost(post: Post)
    | ReceivedPosts(data: PostList, channelId: string)
    | PostDeleted(post: Post)
    | RemovePost(post: Post)
    | ReceivedPostSelected(postId: string)
    | LogoutSuccess
    | Request(op: Op)
    | Succeeded(op: Op)
    | Failed(op: Op, error: ClientError)
    | LogError(error: ClientError)
    | Unrecognised(tag: string)

  /** The post store: posts by id, post ids per channel (newest first),
      and the two focus ids. */
  datatype State = State(
    posts: map<string, Post>,
    postsByChannel: map<string, seq<string>>,
    selectedPostId: string,
    currentFocusedPostId: string
  )

  const Empty := State(map[], map[], "", "")

  /** A channel's id sequence, or `[]` when the channel has none yet. */
  function ChannelOrder(postsByChannel: map<string, seq<string>>, channelId: string): (r: seq<string>)
    ensures channelId in postsByChannel ==> r == postsByChannel[channelId]
    ensures channelId !in postsByChannel ==> r == []
  {
    if channelId in postsByChannel then postsByChannel[channelId] else []
  }

  /** Every listed id has a stored post. */
  predicate AllIn(ids: seq<string>, posts: map<string, Post>) {
    forall i :: 0 <= i < |ids| ==> ids[i] in posts
  }

  /** The store is consistent: no channel lists an id without a stored
      post (no dangling ids), and no channel lists an id twice. */
  predicate Valid(s: State) {
    forall c :: c in s.postsByChannel ==>
      AllIn(s.postsByChannel[c], s.posts) && NoDups(s.postsByChannel[c])
  }
}

=== FILE: received_lemmas.dfy ===
/** What the store promises about the two ways posts arrive: one post at a
    time (a post just created or pushed by the event feed) and a batch
    fetched for a channel. */
module ReceivedProperties {
  import opened Seqs
  import opened PostModel
  import opened Ordering
  import opened PostsReducer

  // ---------------------------------------------------------------- RECEIVED_POST

  /** A single received post is stored under its id, overwriting any stored
      version; a channel that did not list it gets it as its new head,
      assumed the most recent; nothing else changes. */
  lemma ReceivedPostEffect(s: State, post: Post)
    ensures Reduce(s, ReceivedPost(post)).Next?
    ensures var t := Reduce(s, ReceivedPost(post)).state;
      var c := post.channelId;
      && t.posts == s.posts[post.id := post]
      && c in t.postsByChannel
      && (post.id in ChannelOrder(s.postsByChannel, c) ==> t.postsByChannel == s.postsByChannel)
      && (post.id !in ChannelOrder(s.postsByChannel, c) ==>
            t.postsByChannel[c] == [post.id] + ChannelOrder(s.postsByChannel, c))
      && OtherChannelsSame(t.postsByChannel, s.postsByChannel, c)
      && t.selectedPostId == s.selectedPostId && t.currentFocusedPostId == s.currentFocusedPostId
  {
    var t := Reduce(s, ReceivedPost(post)).state;
    assert t.posts.Keys == s.posts[post.id := post].Keys;
  }

  /** The single-post path keeps both store invariants. */
  lemma ReceivedPostKeepsValid(s: State, post: Post)
    requires Valid(s)
    ensures Reduce(s, ReceivedPost(post)).Next? && Valid(Reduce(s, ReceivedPost(post)).state)
  {
    ReceivedPostEffect(s, post);
    var t := Reduce(s, ReceivedPost(post)).state;
    var c := post.channelId;
    var prior := ChannelOrder(s.postsByChannel, c);
    if post.id !in prior {
      NoDupsCons(post.id, prior);
    }
  }

  /** The head insertion keeps a channel newest first when the post is not
      older than the channel's current head, the case the source assumes. */
  lemma ReceivedPostKeepsOrder(s: State, post: Post)
    requires NewestFirst(ChannelOrder(s.postsByChannel, post.channelId), s.posts)
    requires post.id !in ChannelOrder(s.postsByChannel, post.channelId)
    requires forall i :: 0 <= i < |ChannelOrder(s.postsByChannel, post.channelId)| ==>
      s.posts[ChannelOrder(s.postsByChannel, post.channelId)[i]].createAt <= post.createAt
    ensures Reduce(s, ReceivedPost(post)).Next?
    ensures var t := Reduce(s, ReceivedPost(post)).state;
      NewestFirst(t.postsByChannel[post.channelId], t.posts)
  {
    ReceivedPostEffect(s, post);
    var t := Reduce(s, ReceivedPost(post)).state;
    var prior := ChannelOrder(s.postsByChannel, post.channelId);
    assert NewestFirst(prior, t.posts);
    NewestFirstCons(post.id, prior, t.posts);
  }

  // --------------------------------------------------------------- RECEIVED_POSTS

  lemma NoDupsAppend(a: seq<string>, b: seq<string>)
    requires NoDups(a) && NoDups(b)
    requires forall i :: 0 <= i < |b| ==> b[i] !in a
    ensures NoDups(a + b)
  {
    var r := a + b;
    forall i, j | 0 <= i < j < |r| ensures r[i] != r[j] {
      if i >= |a| {
        assert r[i] == b[i - |a|] && r[j] == b[j - |a|];
      } else if j >= |a| {
        assert r[j] == b[j - |a|];
      }
    }
  }

  /** The working copies the batch merge starts from. */
  function Start(s: State, channelId: string): Merged {
    Merged(s.posts, ChannelOrder(s.postsByChannel, channelId))
  }

  /** The shape of the merge's working list: the channel's ids, then the
      accepted ids it did not list; all stored after the merge, and free of
      duplicates when the channel's ids were. */
  lemma MergedOrderShape(s: State, list: PostList, channelId: string)
    requires AllIn(ChannelOrder(s.postsByChannel, channelId), s.posts)
    ensures var m := MergeBatch(Start(s, channelId), Values(list));
      && AllIn(m.order, m.posts)
      && (forall x :: x in m.order <==> x in ChannelOrder(s.postsByChannel, channelId) || x in Accepted(Values(list)))
      && (NoDups(ChannelOrder(s.postsByChannel, channelId)) ==> NoDups(m.order))
  {
    var m0 := Start(s, channelId);
    MergeOrder(m0, Values(list));
    MergedOrderStored(m0, MergeBatch(m0, Values(list)), Accepted(Values(list)));
    MergedOrderMembers(m0, MergeBatch(m0, Values(list)), Accepted(Values(list)));
    MergedOrderDistinct(m0, MergeBatch(m0, Values(list)));
  }

  /** The three parts of `MergedOrderShape`, stated of any merge result `m`
      whose list extends `m0`'s with accepted ids, each once and new. */
  lemma MergedOrderStored(m0: Merged, m: Merged, accepted: set<string>)
    requires AllIn(m0.order, m0.posts) && m.posts.Keys == m0.posts.Keys + accepted
    requires |m0.order| <= |m.order| && m.order[..|m0.order|] == m0.order
    requires forall i :: |m0.order| <= i < |m.order| ==> m.order[i] in accepted
    ensures AllIn(m.order, m.posts)
  {
    var k := |m0.order|;
    forall i | 0 <= i < |m.order| ensures m.order[i] in m.posts {
      if i < k {
        assert m.order[i] == m0.order[i];
      }
    }
  }

  lemma MergedOrderMembers(m0: Merged, m: Merged, accepted: set<string>)
    requires |m0.order| <= |m.order| && m.order[..|m0.order|] == m0.order
    requires forall i :: |m0.order| <= i < |m.order| ==> m.order[i] in accepted
    requires forall x :: x in accepted ==> x in m.order
    ensures forall x :: x in m.order <==> x in m0.order || x in accepted
  {
    var k := |m0.order|;
    forall x | x in m.order ensures x in m0.order || x in accepted {
      var i :| 0 <= i < |m.order| && m.order[i] == x;
      if i < k {
        assert m.order[i] == m0.order[i];
      }
    }
    forall x | x in m0.order ensures x in m.order {
      var i :| 0 <= i < k && m0.order[i] == x;
      assert m.order[i] == x;
    }
  }

  lemma MergedOrderDistinct(m0: Merged, m: Merged)
    requires |m0.order| <= |m.order| && m.order[..|m0.order|] == m0.order
    requires forall i :: |m0.order| <= i < |m.order| ==> m.order[i] !in m0.order
    requires NoDups(m.order[|m0.order|..])
    ensures NoDups(m0.order) ==> NoDups(m.order)
  {
    var k := |m0.order|;
    if NoDups(m0.order) {
      var tail := m.order[k..];
      forall i | 0 <= i < |tail| ensures tail[i] !in m0.order {
        assert tail[i] == m.order[k + i];
      }
      NoDupsAppend(m0.order, tail);
      assert m.order == m0.order + tail;
    }
  }

  /** A batch never makes the store throw while the channel's listed ids
      are all stored. */
  lemma ReceivedPostsNeverThrows(s: State, list: PostList, channelId: string)
    requires AllIn(ChannelOrder(s.postsByChannel, channelId), s.posts)
    ensures Reduce(s, ReceivedPosts(list, channelId)).Next?
  {
    MergedOrderShape(s, list, channelId);
  }

  /** The batch path in full: the map gains exactly the accepted posts'
      ids; the channel's ids afterwards are its prior ids and the accepted
      ids, each once, ordered newest first; other channels and the focus
      ids are untouched. */
  lemma ReceivedPostsEffect(s: State, list: PostList, channelId: string)
    requires Valid(s)
    ensures Reduce(s, ReceivedPosts(list, channelId)).Next?
    ensures var t := Reduce(s, ReceivedPosts(list, channelId)).state;
      var ids := t.postsByChannel[channelId];
      && t.posts.Keys == s.posts.Keys + Accepted(Values(list))
      && (forall x :: x in ids <==> x in ChannelOrder(s.postsByChannel, channelId) || x in Accepted(Values(list)))
      && NoDups(ids)
      && NewestFirst(ids, t.posts)
      && OtherChannelsSame(t.postsByChannel, s.postsByChannel, channelId)
      && t.selectedPostId == s.selectedPostId && t.currentFocusedPostId == s.currentFocusedPostId
  {
    var prior := ChannelOrder(s.postsByChannel, channelId);
    assert AllIn(prior, s.posts) && NoDups(prior);
    MergedOrderShape(s, list, channelId);
    var m := MergeBatch(Start(s, channelId), Values(list));
    var t := Reduce(s, ReceivedPosts(list, channelId)).state;
    var ids := t.postsByChannel[channelId];
    assert multiset(ids) == multiset(m.order);
    forall x ensures x in ids <==> x in m.order {
      assert x in ids <==> x in multiset(ids);
      assert x in m.order <==> x in multiset(m.order);
    }
    if |m.order| >= 2 {
      SortKeepsDistinct(m.order, m.posts);
    }
  }

  /** The batch path keeps both store invariants. */
  lemma ReceivedPostsKeepsValid(s: State, list: PostList, channelId: string)
    requires Valid(s)
    ensures Reduce(s, ReceivedPosts(list, channelId)).Next?
    ensures Valid(Reduce(s, ReceivedPosts(list, channelId)).state)
  {
    ReceivedPostsEffect(s, list, channelId);
  }

  /** The stale guard, as written: the merge never makes a stored record
      newer, the record kept for an accepted id is no newer than the batch's
      post, entries the batch does not accept are untouched, and every
      stored record is the old one or an accepted batch post. Deleted batch
      posts never enter the store. */
  lemma ReceivedPostsKeepsOldest(s: State, list: PostList, channelId: string)
    requires Reduce(s, ReceivedPosts(list, channelId)).Next?
    ensures var t := Reduce(s, ReceivedPosts(list, channelId)).state;
      var batch := Values(list);
      && (forall x :: x in s.posts ==> x in t.posts && t.posts[x].updateAt <= s.posts[x].updateAt)
      && (forall i :: 0 <= i < |batch| && batch[i].deleteAt <= 0 ==>
            batch[i].id in t.posts && t.posts[batch[i].id].updateAt <= batch[i].updateAt)
      && (forall x :: x in s.posts && x !in Accepted(batch) ==> t.posts[x] == s.posts[x])
      && (forall x :: x !in s.posts && x !in Accepted(batch) ==> x !in t.posts)
      && (forall x :: x in t.posts ==>
            (x in s.posts && t.posts[x] == s.posts[x]) ||
            (exists i :: 0 <= i < |batch| && batch[i].deleteAt <= 0 && batch[i] == t.posts[x] && batch[i].id == x))
  {
    var m0 := Start(s, channelId);
    var batch := Values(list);
    MergeNeverNewer(m0, batch);
    MergeKeepsOldest(m0, batch);
    MergeFrame(m0, batch);
    MergeSources(m0, batch);
  }

  /** Concretely: a stored post with `update_at` 1 is kept when the batch
      brings the same post edited at `update_at` 2, and replaced when the
      batch brings one with `update_at` 0. */
  lemma StaleGuardKeepsOlderRecord(stored: Post, incoming: Post, channelId: string)
    requires stored.id == incoming.id && incoming.deleteAt <= 0
    requires stored.updateAt == 1
    ensures var s := State(map[stored.id := stored], map[channelId := [stored.id]], "", "");
      var list := PostList([incoming.id], [Entry(incoming.id, incoming)]);
      && Reduce(s, ReceivedPosts(list, channelId)).Next?
      && (incoming.updateAt == 2 ==> Reduce(s, ReceivedPosts(list, channelId)).state.posts[stored.id] == stored)
      && (incoming.updateAt == 0 ==> Reduce(s, ReceivedPosts(list, channelId)).state.posts[stored.id] == incoming)
  {
    var s := State(map[stored.id := stored], map[channelId := [stored.id]], "", "");
    var list := PostList([incoming.id], [Entry(incoming.id, incoming)]);
    var batch := Values(list);
    assert batch == [incoming];
    assert batch[..0] == [];
    assert MergeBatch(Start(s, channelId), batch[..0]) == Start(s, channelId);
    var m := MergeBatch(Start(s, channelId), batch);
    assert m == MergeOne(Start(s, channelId), incoming);
  }

  /** The merge changes nothing when every accepted batch post is already
      listed and stored with an `update_at` no greater than the post's. */
  lemma {:induction false} MergeFixpoint(m: Merged, batch: seq<Post>)
    requires forall i :: 0 <= i < |batch| && batch[i].deleteAt <= 0 ==>
      batch[i].id in m.order && batch[i].id in m.posts && m.posts[batch[i].id].updateAt <= batch[i].updateAt
    ensures MergeBatch(m, batch) == m
    decreases |batch|
  {
    if batch != [] {
      var n := |batch| - 1;
      assert forall i :: 0 <= i < n ==> batch[..n][i] == batch[i];
      MergeFixpoint(m, batch[..n]);
    }
  }

  /** After a batch, the channel's ids are ordered newest first (or are
      too few to sort), and every accepted batch post is listed and stored
      with an `update_at` no greater than its own. */
  lemma AfterBatch(s: State, list: PostList, channelId: string)
    requires Reduce(s, ReceivedPosts(list, channelId)).Next?
    ensures var t := Reduce(s, ReceivedPosts(list, channelId)).state;
      var batch := Values(list);
      && channelId in t.postsByChannel
      && (|t.postsByChannel[channelId]| < 2 || NewestFirst(t.postsByChannel[channelId], t.posts))
      && (forall i :: 0 <= i < |batch| && batch[i].deleteAt <= 0 ==>
            batch[i].id in t.postsByChannel[channelId] && batch[i].id in t.posts &&
            t.posts[batch[i].id].updateAt <= batch[i].updateAt)
  {
    var t := Reduce(s, ReceivedPosts(list, channelId)).state;
    var batch := Values(list);
    var m := MergeBatch(Start(s, channelId), batch);
    var ids := t.postsByChannel[channelId];
    assert t.posts == m.posts;
    MergeOrder(Start(s, channelId), batch);
    MergeKeepsOldest(Start(s, channelId), batch);
    assert multiset(ids) == multiset(m.order);
    forall i | 0 <= i < |batch| && batch[i].deleteAt <= 0
      ensures batch[i].id in ids
    {
      assert batch[i].id in Accepted(batch);
      assert batch[i].id in multiset(m.order);
    }
  }

  lemma MapUpdateSame(m: map<string, seq<string>>, k: string)
    requires k in m
    ensures m[k := m[k]] == m
  {
  }

  /** Receiving the same batch twice is the same as receiving it once. */
  lemma ReceivedPostsIdempotent(s: State, list: PostList, channelId: string)
    requires Reduce(s, ReceivedPosts(list, channelId)).Next?
    ensures var t := Reduce(s, ReceivedPosts(list, channelId)).state;
      Reduce(t, ReceivedPosts(list, channelId)) == Next(t)
  {
    var t := Reduce(s, ReceivedPosts(list, channelId)).state;
    var ids := t.postsByChannel[channelId];
    AfterBatch(s, list, channelId);
    var e := Entities(t.posts, t.postsByChannel);
    assert Start(t, channelId) == Merged(t.posts, ids);
    MergeFixpoint(Start(t, channelId), Values(list));
    if |ids| >= 2 {
      SortOfSortedIsIdentity(ids, t.posts);
    }
    MapUpdateSame(t.postsByChannel, channelId);
    assert HandleReceivedPosts(e, list, channelId) == Some(e);
    assert HandlePosts(e, ReceivedPosts(list, channelId)) == Some(e);
  }
}

=== FILE: reducer.dfy ===
/** The post store reducer: one handler per recognised record type, the
    two focus-id sub-reducers, and `Reduce`, which combines them. A handler
    yields `None` exactly where the source raises a TypeError (reading a
    field of a post that is not stored), and `Reduce` then yields `Throws`:
    the store keeps its previous state and the error reaches the caller
    of `dispatch`. */
module PostsReducer {
  import opened Seqs
  import opened PostModel
  import opened Ordering
  import opened CommentCascade

  /** The part of the state that `handlePosts` computes. */
  datatype Entities = Entities(posts: map<string, Post>, postsByChannel: map<string, seq<string>>)

  datatype Step = Next(state: State) | Throws

  /** Every channel other than `c` is listed identically in both maps. */
  ghost predicate OtherChannelsSame(a: map<string, seq<string>>, b: map<string, seq<string>>, c: string) {
    forall c' :: c' != c ==> (c' in a <==> c' in b) && (c' in a ==> a[c'] == b[c'])
  }

  // ---------------------------------------------------------------- RECEIVED_POST

  /** Store the post and, unless its channel already lists it, put its id in
      front of the channel's ids. */
  function HandleReceivedPost(e: Entities, post: Post): (r: Entities)
    ensures r.posts.Keys == e.posts.Keys + {post.id}
    ensures r.posts[post.id] == post
    ensures forall k :: k in e.posts && k != post.id ==> r.posts[k] == e.posts[k]
    ensures post.id in ChannelOrder(e.postsByChannel, post.channelId) ==> r.postsByChannel == e.postsByChannel
    ensures post.id !in ChannelOrder(e.postsByChannel, post.channelId) ==>
      post.channelId in r.postsByChannel &&
      r.postsByChannel[post.channelId] == [post.id] + ChannelOrder(e.postsByChannel, post.channelId)
    ensures OtherChannelsSame(r.postsByChannel, e.postsByChannel, post.channelId)
  {
    var posts := e.posts[post.id := post];
    var c := post.channelId;
    if c !in e.postsByChannel || post.id !in e.postsByChannel[c] then
      Entities(posts, e.postsByChannel[c := [post.id] + ChannelOrder(e.postsByChannel, c)])
    else
      Entities(posts, e.postsByChannel)
  }

  // --------------------------------------------------------------- RECEIVED_POSTS

  /** The working copies `nextPosts` and `postsInChannel` of the batch merge. */
  datatype Merged = Merged(posts: map<string, Post>, order: seq<string>)

  /** Ids of the batch posts that are not deleted (`delete_at` not positive). */
  function Accepted(batch: seq<Post>): set<string> {
    set i | 0 <= i < |batch| && batch[i].deleteAt <= 0 :: batch[i].id
  }

  /** One iteration of the merge loop. The stored post is replaced when
      there is none or when the stored `update_at` is greater than the
      incoming one; the id is appended when the channel does not list it. */
  function MergeOne(m: Merged, post: Post): (r: Merged)
    ensures post.deleteAt > 0 ==> r == m
    ensures post.deleteAt <= 0 ==> r.posts.Keys == m.posts.Keys + {post.id}
    ensures post.deleteAt <= 0 ==> post.id in r.order
    ensures |m.order| <= |r.order| <= |m.order| + 1 && r.order[..|m.order|] == m.order
    ensures post.deleteAt <= 0 && post.id in m.posts ==>
      r.posts[post.id].updateAt <= m.posts[post.id].updateAt && r.posts[post.id].updateAt <= post.updateAt
    ensures r.posts == m.posts || r.posts == m.posts[post.id := post]
    ensures post.deleteAt <= 0 && post.id in m.posts && m.posts[post.id].updateAt <= post.updateAt ==> r.posts == m.posts
    ensures post.deleteAt <= 0 && (post.id !in m.posts || m.posts[post.id].updateAt > post.updateAt) ==>
      r.posts == m.posts[post.id := post]
  {
    if post.deleteAt > 0 then m
    else
      var posts :=
        if post.id !in m.posts || m.posts[post.id].updateAt > post.updateAt then m.posts[post.id := post]
        else m.posts;
      var order := if post.id !in m.order then m.order + [post.id] else m.order;
      Merged(posts, order)
  }

  /** The merge loop over the batch, in the batch's iteration order. */
  function MergeBatch(m: Merged, batch: seq<Post>): (r: Merged)
    ensures r.posts.Keys == m.posts.Keys + Accepted(batch)
    decreases |batch|
  {
    if batch == [] then m
    else
      AcceptedSnoc(batch);
      MergeOne(MergeBatch(m, batch[..|batch| - 1]), batch[|batch| - 1])
  }

  lemma AcceptedSnoc(batch: seq<Post>)
    requires batch != []
    ensures var n := |batch| - 1;
      Accepted(batch) == Accepted(batch[..n]) + (if batch[n].deleteAt <= 0 then {batch[n].id} else {})
  {
    var n := |batch| - 1;
    assert forall i :: 0 <= i < n ==> batch[..n][i] == batch[i];
  }

  /** The merge leaves every entry the batch does not accept alone:
      deleted batch posts never touch the map. */
  lemma {:induction false} MergeFrame(m: Merged, batch: seq<Post>)
    ensures forall x :: x in m.posts && x !in Accepted(batch) ==> MergeBatch(m, batch).posts[x] == m.posts[x]
    decreases |batch|
  {
    if batch != [] {
      var n := |batch| - 1;
      MergeFrame(m, batch[..n]);
      AcceptedSnoc(batch);
    }
  }

  /** Every stored record after the merge is the old one or an accepted
      batch post filed under its own id. */
  lemma {:induction false} MergeSources(m: Merged, batch: seq<Post>)
    ensures forall x :: x in MergeBatch(m, batch).posts ==>
      (x in m.posts && MergeBatch(m, batch).posts[x] == m.posts[x]) ||
      (exists i :: 0 <= i < |batch| && batch[i].deleteAt <= 0 && batch[i] == MergeBatch(m, batch).posts[x] && batch[i].id == x)
    decreases |batch|
  {
    if batch != [] {
      var n := |batch| - 1;
      MergeSources(m, batch[..n]);
      assert forall i :: 0 <= i < n ==> batch[..n][i] == batch[i];
    }
  }

  /** One merge step never makes a stored record newer, and leaves the
      record under an accepted post's id no newer than that post. */
  lemma MergeOneOldest(m: Merged, post: Post)
    ensures forall x :: x in m.posts ==> MergeOne(m, post).posts[x].updateAt <= m.posts[x].updateAt
    ensures post.deleteAt <= 0 ==> MergeOne(m, post).posts[post.id].updateAt <= post.updateAt
  {
  }

  /** The staleness guard replaces a stored post only by one with a smaller
      `update_at`, so the merge never makes a stored record newer. */
  lemma {:induction false} MergeNeverNewer(m: Merged, batch: seq<Post>)
    ensures forall x :: x in m.posts ==> MergeBatch(m, batch).posts[x].updateAt <= m.posts[x].updateAt
    decreases |batch|
  {
    if batch != [] {
      var n := |batch| - 1;
      MergeNeverNewer(m, batch[..n]);
      MergeOneOldest(MergeBatch(m, batch[..n]), batch[n]);
    }
  }

  /** The merge keeps, per id, the record with the smallest `update_at` it
      has seen: never newer than any accepted batch post with that id. */
  lemma {:induction false} MergeKeepsOldest(m: Merged, batch: seq<Post>)
    ensures forall i :: 0 <= i < |batch| && batch[i].deleteAt <= 0 ==>
      MergeBatch(m, batch).posts[batch[i].id].updateAt <= batch[i].updateAt
    decreases |batch|
  {
    if batch != [] {
      var n := |batch| - 1;
      var prev := MergeBatch(m, batch[..n]);
      var r := MergeBatch(m, batch);
      assert r == MergeOne(prev, batch[n]);
      MergeKeepsOldest(m, batch[..n]);
      MergeOneOldest(prev, batch[n]);
      forall i | 0 <= i < n && batch[i].deleteAt <= 0
        ensures r.posts[batch[i].id].updateAt <= batch[i].updateAt
      {
        assert batch[..n][i] == batch[i];
        assert batch[i].id in Accepted(batch[..n]);
        assert prev.posts[batch[i].id].updateAt <= batch[i].updateAt;
      }
    }
  }

  /** The channel's ids after the merge: the old ids first and unchanged,
      then each accepted id the channel did not list, once. */
  lemma {:induction false} MergeOrder(m: Merged, batch: seq<Post>)
    ensures var r := MergeBatch(m, batch);
      && |m.order| <= |r.order| && r.order[..|m.order|] == m.order
      && (forall i :: |m.order| <= i < |r.order| ==> r.order[i] !in m.order && r.order[i] in Accepted(batch))
      && (forall x :: x in Accepted(batch) ==> x in r.order)
      && NoDups(r.order[|m.order|..])
    decreases |batch|
  {
    if batch != [] {
      var n := |batch| - 1;
      MergeOrder(m, batch[..n]);
      AcceptedSnoc(batch);
      var prev := MergeBatch(m, batch[..n]);
      var r := MergeBatch(m, batch);
      var k := |m.order|;
      assert r.order == MergeOne(prev, batch[n]).order;
      if batch[n].deleteAt <= 0 && batch[n].id !in prev.order {
        assert r.order == prev.order + [batch[n].id];
        assert r.order[..k] == prev.order[..k];
        assert r.order[k..] == prev.order[k..] + [batch[n].id];
        assert batch[n].id !in prev.order[k..];
        assert forall i :: k <= i < |prev.order| ==> r.order[i] == prev.order[i];
      } else {
        assert r.order == prev.order;
      }
    }
  }

  /** Merge the batch into the store and re-sort the channel's ids newest
      first. The comparator reads `create_at` of both ids it compares, so
      when two or more ids are listed and one has no stored post, the sort
      throws. */
  function HandleReceivedPosts(e: Entities, list: PostList, channelId: string): (r: Option<Entities>)
    ensures r.Some? ==>
      var m := MergeBatch(Merged(e.posts, ChannelOrder(e.postsByChannel, channelId)), Values(list));
      && r.value.posts == m.posts
      && channelId in r.value.postsByChannel
      && multiset(r.value.postsByChannel[channelId]) == multiset(m.order)
      && (AllIn(m.order, m.posts) ==> NewestFirst(r.value.postsByChannel[channelId], m.posts))
      && OtherChannelsSame(r.value.postsByChannel, e.postsByChannel, channelId)
  {
    var m := MergeBatch(Merged(e.posts, ChannelOrder(e.postsByChannel, channelId)), Values(list));
    if |m.order| < 2 then
      Some(Entities(m.posts, e.postsByChannel[channelId := m.order]))
    else if AllIn(m.order, m.posts) then
      Some(Entities(m.posts, e.postsByChannel[channelId := SortNewestFirst(m.order, m.posts)]))
    else
      None
  }

  // ----------------------------------------------------------------- POST_DELETED

  /** The soft-deleted copy of a stored post: lifecycle flag set to deleted,
      attachments cleared, reactions flag cleared; the message is kept. */
  function SoftDeleted(p: Post): (r: Post)
    ensures SoftDeleteOf(p, r)
    ensures r.(state := p.state, fileIds := p.fileIds, hasReactions := p.hasReactions) == p
  {
    p.(state := Deleted, fileIds := [], hasReactions := false)
  }

  /** `after` is `before` with exactly the three soft-delete fields changed. */
  predicate SoftDeleteOf(before: Post, after: Post) {
    && after.state == Deleted && after.fileIds == [] && !after.hasReactions
    && after.id == before.id && after.channelId == before.channelId && after.rootId == before.rootId
    && after.userId == before.userId && after.createAt == before.createAt && after.updateAt == before.updateAt
    && after.deleteAt == before.deleteAt && after.message == before.message
  }

  function HandlePostDeleted(e: Entities, post: Post): (r: Entities)
    ensures r.postsByChannel == e.postsByChannel
    ensures r.posts.Keys == e.posts.Keys
    ensures post.id in e.posts ==> SoftDeleteOf(e.posts[post.id], r.posts[post.id])
    ensures forall k :: k in e.posts && k != post.id ==> r.posts[k] == e.posts[k]
    ensures post.id !in e.posts ==> r == e
  {
    if post.id in e.posts then
      Entities(e.posts[post.id := SoftDeleted(e.posts[post.id])], e.postsByChannel)
    else
      e
  }

  // ------------------------------------------------------------------ REMOVE_POST

  /** `indexOf` then `splice(index, 1)` when found: the first occurrence of
      `id` leaves the sequence, everything else keeps its order. */
  function WithoutFirst(ids: seq<string>, id: string): (r: seq<string>)
    ensures id !in ids ==> r == ids
    ensures id in ids ==> |r| == |ids| - 1 && multiset(r) == multiset(ids) - multiset{id}
    ensures NoDups(ids) ==> NoDups(r) && id !in r
    ensures id in ids ==> exists k :: 0 <= k < |ids| && ids[k] == id && id !in ids[..k] && r == ids[..k] + ids[k + 1..]
  {
    var k := IndexOf(ids, id);
    if k == -1 then ids
    else
      NoDupsSplice(ids, k);
      assert ids == ids[..k] + [id] + ids[k + 1..];
      Splice(ids, k)
  }

  /** Remove a stored post and, through `Cascade`, the comments on it that
      the splicing loop reaches, from the map and from the channel named by
      the record's post. */
  function HandleRemovePost(e: Entities, post: Post): (r: Option<Entities>)
    ensures post.id !in e.posts ==> r == Some(e)
    ensures r.Some? && post.id in e.posts ==>
      && r.value.posts.Keys <= e.posts.Keys - {post.id}
      && post.channelId in r.value.postsByChannel
      && OtherChannelsSame(r.value.postsByChannel, e.postsByChannel, post.channelId)
  {
    if post.id !in e.posts then Some(e)
    else
      var c := post.channelId;
      var posts := e.posts - {post.id};
      var order' := WithoutFirst(ChannelOrder(e.postsByChannel, c), post.id);
      match Cascade(posts, order', post.id, 0)
      case None => None
      case Some(removal) =>
        Some(Entities(removal.posts, e.postsByChannel[c := removal.ids]))
  }

  // ------------------------------------------------------------------- dispatcher

  /** `handlePosts`: the two maps. */
  function HandlePosts(e: Entities, a: Action): (r: Option<Entities>)
    ensures r.None? ==> a.ReceivedPosts? || a.RemovePost?
    ensures a.LogoutSuccess? ==> r == Some(Entities(map[], map[]))
    ensures a.ReceivedPostSelected? || a.Request? || a.Succeeded? || a.Failed? || a.LogError? || a.Unrecognised? ==>
      r == Some(e)
  {
    match a
    case ReceivedPost(post) => Some(HandleReceivedPost(e, post))
    case ReceivedPosts(list, channelId) => HandleReceivedPosts(e, list, channelId)
    case PostDeleted(post) => Some(HandlePostDeleted(e, post))
    case RemovePost(post) => HandleRemovePost(e, post)
    case LogoutSuccess => Some(Entities(map[], map[]))
    case _ => Some(e)
  }

  /** `selectedPostId`. */
  function SelectedPostId(current: string, a: Action): (r: string)
    ensures r != current ==> a.ReceivedPostSelected? || a.LogoutSuccess?
    ensures a.ReceivedPostSelected? ==> r == a.postId
    ensures a.LogoutSuccess? ==> r == ""
  {
    match a
    case ReceivedPostSelected(postId) => postId
    case LogoutSuccess => ""
    case _ => current
  }

  /** `currentFocusedPostId`: only a logout changes it. */
  function CurrentFocusedPostId(current: string, a: Action): (r: string)
    ensures r != current ==> a.LogoutSuccess?
    ensures a.LogoutSuccess? ==> r == ""
  {
    if a.LogoutSuccess? then "" else current
  }

  /** The post reducer. The source returns the old state object when all
      four fields are unchanged by reference; with values, that state is
      equal to the one built here, so the check has no observable effect
      and its promise becomes the lemma `UnrecognisedIsNoOp`. */
  function Reduce(s: State, a: Action): (r: Step)
    ensures r.Throws? ==> a.ReceivedPosts? || a.RemovePost?
    ensures a.LogoutSuccess? ==> r == Next(Empty)
    ensures r.Next? && !a.LogoutSuccess? ==> r.state.currentFocusedPostId == s.currentFocusedPostId
    ensures r.Next? && !a.LogoutSuccess? && !a.ReceivedPostSelected? ==> r.state.selectedPostId == s.selectedPostId
  {
    match HandlePosts(Entities(s.posts, s.postsByChannel), a)
    case None => Throws
    case Some(e) =>
      Next(State(e.posts, e.postsByChannel,
                 SelectedPostId(s.selectedPostId, a),
                 CurrentFocusedPostId(s.currentFocusedPostId, a)))
  }

  /** A batched dispatch: the records in order, all or nothing. */
  function ReduceAll(s: State, actions: seq<Action>): (r: Step)
    ensures (forall i :: 0 <= i < |actions| ==> !actions[i].ReceivedPosts? && !actions[i].RemovePost?) ==> r.Next?
    ensures r.Next? && (forall i :: 0 <= i < |actions| ==> !actions[i].LogoutSuccess?) ==>
      r.state.currentFocusedPostId == s.currentFocusedPostId
    decreases |actions|
  {
    if actions == [] then Next(s)
    else
      assert forall i :: 0 <= i < |actions| - 1 ==> actions[1..][i] == actions[i + 1];
      match Reduce(s, actions[0])
      case Throws => Throws
      case Next(t) => ReduceAll(t, actions[1..])
  }
}

=== FILE: seqs.dfy ===
/** Small sequence helpers shared by the post store model: the optional
    value, duplicate-freedom, and the two JavaScript array operations the
    reducer relies on (`indexOf` and a one-element `splice`). */
module Seqs {

  datatype Option<+T> = None | Some(value: T)

  /** No element occurs twice. */
  predicate NoDups<T(==)>(s: seq<T>) {
    forall i, j :: 0 <= i < j < |s| ==> s[i] != s[j]
  }

  /** `Array.prototype.indexOf`: the position of the first occurrence of `x`,
      or -1 when `x` does not occur. */
  function IndexOf<T(==)>(s: seq<T>, x: T): (k: int)
    ensures -1 <= k < |s|
    ensures k == -1 <==> x !in s
    ensures 0 <= k ==> s[k] == x && x !in s[..k]
  {
    if |s| == 0 then -1
    else if s[0] == x then 0
    else
      var k := IndexOf(s[1..], x);
      if k == -1 then -1
      else
        assert s[..k + 1] == [s[0]] + s[1..][..k];
        k + 1
  }

  /** `splice(k, 1)`: drop the element at position `k`. */
  function Splice<T>(s: seq<T>, k: nat): (r: seq<T>)
    requires k < |s|
    ensures |r| == |s| - 1
    ensures forall i :: 0 <= i < k ==> r[i] == s[i]
    ensures forall i :: k <= i < |r| ==> r[i] == s[i + 1]
  {
    s[..k] + s[k + 1..]
  }

  lemma NoDupsCons<T>(x: T, s: seq<T>)
    ensures x !in s && NoDups(s) ==> NoDups([x] + s)
  {
  }

  lemma NoDupsTail<T>(s: seq<T>)
    requires |s| > 0 && NoDups(s)
    ensures NoDups(s[1..]) && s[0] !in s[1..]
  {
  }

  lemma NoDupsSplice<T>(s: seq<T>, k: nat)
    requires k < |s|
    ensures NoDups(s) ==> NoDups(Splice(s, k)) && s[k] !in Splice(s, k)
  {
    if !NoDups(s) { return; }
    var r := Splice(s, k);
    forall i, j | 0 <= i < j < |r| ensures r[i] != r[j] {
      var i0 := if i < k then i else i + 1;
      var j0 := if j < k then j else j + 1;
      assert r[i] == s[i0] && r[j] == s[j0];
    }
    forall i | 0 <= i < |r| ensures r[i] != s[k] {
      var i0 := if i < k then i else i + 1;
      assert r[i] == s[i0];
    }
  }
}

=== FILE: store_lemmas.dfy ===
/** What the store promises about deletion, removal, selection, logout and
    the records it does not recognise, and about batched dispatches. */
module StoreProperties {
  import opened Seqs
  import opened PostModel
  import opened CommentCascade
  import opened PostsReducer
  import opened ReceivedProperties

  // ----------------------------------------------------------------- POST_DELETED

  /** A soft delete rewrites only the stored post's three lifecycle fields
      (keeping its message) and never touches any channel's ids; a post
      that is not stored is ignored. */
  lemma PostDeletedEffect(s: State, post: Post)
    ensures Reduce(s, PostDeleted(post)).Next?
    ensures var t := Reduce(s, PostDeleted(post)).state;
      && t.postsByChannel == s.postsByChannel
      && t.posts.Keys == s.posts.Keys
      && (post.id in s.posts ==> SoftDeleteOf(s.posts[post.id], t.posts[post.id])
                                 && t.posts[post.id].message == s.posts[post.id].message)
      && (forall k :: k in s.posts && k != post.id ==> t.posts[k] == s.posts[k])
      && (post.id !in s.posts ==> t == s)
      && t.selectedPostId == s.selectedPostId && t.currentFocusedPostId == s.currentFocusedPostId
  {
  }

  /** Deleting twice is deleting once. */
  lemma PostDeletedIdempotent(s: State, post: Post)
    ensures var t := Reduce(s, PostDeleted(post)).state;
      Reduce(t, PostDeleted(post)) == Next(t)
  {
    var t := Reduce(s, PostDeleted(post)).state;
    if post.id in s.posts {
      var p := t.posts[post.id];
      assert SoftDeleted(p) == p;
      assert t.posts[post.id := SoftDeleted(p)] == t.posts;
    }
  }

  lemma PostDeletedKeepsValid(s: State, post: Post)
    requires Valid(s)
    ensures Valid(Reduce(s, PostDeleted(post)).state)
  {
    PostDeletedEffect(s, post);
  }

  // ------------------------------------------------------------------ REMOVE_POST

  /** Removing a post the store does not hold changes nothing. */
  lemma RemoveUnstoredIsNoOp(s: State, post: Post)
    requires post.id !in s.posts
    ensures Reduce(s, RemovePost(post)) == Next(s)
  {
  }

  /** The channel's ids once the removed post itself is spliced out. */
  function Rest(s: State, post: Post): seq<string> {
    WithoutFirst(ChannelOrder(s.postsByChannel, post.channelId), post.id)
  }

  lemma RestStored(s: State, post: Post)
    requires Valid(s)
    ensures NoDups(Rest(s, post)) && AllIn(Rest(s, post), s.posts - {post.id})
  {
    var order := ChannelOrder(s.postsByChannel, post.channelId);
    var r := Rest(s, post);
    assert AllIn(order, s.posts) && NoDups(order);
    forall i | 0 <= i < |r| ensures r[i] in s.posts - {post.id} {
      assert r[i] in multiset(r);
      assert r[i] in multiset(order);
    }
  }

  /** On a valid store, removing a stored post removes it and exactly the
      comments on it that the skip filter drops, and leaves the channel
      named by the record with the skip filter's survivors. */
  lemma RemovePostIsSkipFilter(s: State, post: Post)
    requires Valid(s) && post.id in s.posts
    ensures var posts := s.posts - {post.id};
      Reduce(s, RemovePost(post)) == Next(State(
        posts - Removed(posts, post.id, Rest(s, post)),
        s.postsByChannel[post.channelId := Survivors(posts, post.id, Rest(s, post))],
        s.selectedPostId, s.currentFocusedPostId))
  {
    RestStored(s, post);
    CascadeIsSkipFilter(s.posts - {post.id}, post.id, Rest(s, post));
  }

  /** On a valid store a removal does not throw; it removes the post itself
      and otherwise only comments on it, and leaves every remaining post
      unchanged. */
  lemma RemovePostRemovesOnlyComments(s: State, post: Post)
    requires Valid(s) && post.id in s.posts
    ensures Reduce(s, RemovePost(post)).Next?
    ensures var t := Reduce(s, RemovePost(post)).state;
      && post.id !in t.posts
      && t.posts.Keys <= s.posts.Keys
      && (forall x :: x in s.posts && x !in t.posts && x != post.id ==> s.posts[x].rootId == post.id)
      && (forall x :: x in t.posts ==> t.posts[x] == s.posts[x])
  {
    RemovePostIsSkipFilter(s, post);
    SkipFilterSplits(s.posts - {post.id}, post.id, Rest(s, post));
  }

  /** On a valid store, when no two comments on the removed post sit next
      to each other in the list the removal loop walks (the record channel's
      ids with the post's own id spliced out), the removal takes every one of
      them: none stays stored and none stays listed in that channel. */
  lemma RemovePostCompleteWithoutAdjacentComments(s: State, post: Post)
    requires Valid(s) && post.id in s.posts
    requires forall j :: 0 < j < |Rest(s, post)| ==>
      !(IsComment(s.posts, post.id, Rest(s, post)[j - 1]) && IsComment(s.posts, post.id, Rest(s, post)[j]))
    ensures Reduce(s, RemovePost(post)).Next?
    ensures var t := Reduce(s, RemovePost(post)).state;
      && post.channelId in t.postsByChannel
      && (forall x :: x in t.postsByChannel[post.channelId] ==> !IsComment(s.posts, post.id, x))
      && (forall x :: x in Rest(s, post) && IsComment(s.posts, post.id, x) ==> x !in t.posts)
  {
    var posts := s.posts - {post.id};
    var rest := Rest(s, post);
    RestStored(s, post);
    RemovePostIsSkipFilter(s, post);
    SkipFilterSplits(posts, post.id, rest);
    forall j | 0 <= j < |rest| ensures IsComment(posts, post.id, rest[j]) == IsComment(s.posts, post.id, rest[j]) {
      assert rest[j] in posts;
    }
    CascadeCompleteWithoutAdjacentComments(posts, post.id, rest);
  }

  /** The three-post store of the skip example, its channel listing two
      comments and then their root. */
  function SkipExample(root: Post, c1: Post, c2: Post): State {
    State(map[root.id := root, c1.id := c1, c2.id := c2],
          map[root.channelId := [c1.id, c2.id, root.id]], "", "")
  }

  /** The removal loop on any store whose record channel lists two
      comments on the removed root and then the root itself. */
  lemma SkipSteps(e: Entities, root: Post, c1: string, c2: string)
    requires root.id != c1 && root.id != c2 && c1 != c2
    requires root.id in e.posts && c1 in e.posts && c2 in e.posts
    requires e.posts[c1].rootId == root.id && e.posts[c2].rootId == root.id
    requires ChannelOrder(e.postsByChannel, root.channelId) == [c1, c2, root.id]
    ensures HandleRemovePost(e, root)
         == Some(Entities((e.posts - {root.id}) - {c1}, e.postsByChannel[root.channelId := [c2]]))
  {
    var posts := e.posts - {root.id};
    var order := [c1, c2, root.id];
    assert IndexOf(order, root.id) == 2;
    assert Splice(order, 2) == [c1, c2];
    assert WithoutFirst(order, root.id) == [c1, c2];
    assert IndexOf([c1, c2], c1) == 0;
    assert Splice([c1, c2], 0) == [c2];
    assert Cascade(posts - {c1}, [c2], root.id, 1) == Some(Removal(posts - {c1}, [c2]));
    assert c1 in posts && posts[c1].rootId == root.id;
    assert Cascade(posts, [c1, c2], root.id, 0) == Some(Removal(posts - {c1}, [c2]));
    assert HandleRemovePost(e, root) == Some(Entities(posts - {c1}, e.postsByChannel[root.channelId := [c2]]));
  }

  /** The skipped comment, concretely: removing the root drops the first
      comment and keeps the second, which slid into the examined slot. */
  lemma RemovePostSkipsAdjacentComment(root: Post, c1: Post, c2: Post)
    requires root.id != c1.id && root.id != c2.id && c1.id != c2.id
    requires c1.rootId == root.id && c2.rootId == root.id
    ensures Reduce(SkipExample(root, c1, c2), RemovePost(root))
         == Next(State(map[c2.id := c2], map[root.channelId := [c2.id]], "", ""))
  {
    var s := SkipExample(root, c1, c2);
    SkipSteps(Entities(s.posts, s.postsByChannel), root, c1.id, c2.id);
    var pbc := s.postsByChannel;
    assert pbc[root.channelId := [c2.id]] == map[root.channelId := [c2.id]];
    assert (s.posts - {root.id}) - {c1.id} == map[c2.id := c2];
  }

  /** The record names the channel to clean: when another channel than the
      one it names lists the post, that channel keeps the id of a post the
      map no longer holds, and the store is no longer valid. */
  lemma RemovePostLeavesDanglingId(s: State, p: Post, listedIn: string)
    requires Valid(s) && p.id in s.posts
    requires listedIn != p.channelId && listedIn in s.postsByChannel && p.id in s.postsByChannel[listedIn]
    ensures Reduce(s, RemovePost(p)).Next?
    ensures p.id !in Reduce(s, RemovePost(p)).state.posts
    ensures Reduce(s, RemovePost(p)).state.postsByChannel[listedIn] == s.postsByChannel[listedIn]
    ensures !Valid(Reduce(s, RemovePost(p)).state)
  {
    RemovePostIsSkipFilter(s, p);
    var t := Reduce(s, RemovePost(p)).state;
    assert t.postsByChannel[listedIn] == s.postsByChannel[listedIn];
    var i :| 0 <= i < |t.postsByChannel[listedIn]| && t.postsByChannel[listedIn][i] == p.id;
    assert !AllIn(t.postsByChannel[listedIn], t.posts);
  }

  /** Such a store exists: one post, listed only in another channel. */
  lemma DanglingIdExample(p: Post, listedIn: string)
    requires listedIn != p.channelId
    ensures var s := State(map[p.id := p], map[listedIn := [p.id]], "", "");
      Valid(s) && !Valid(Reduce(s, RemovePost(p)).state)
  {
    var s := State(map[p.id := p], map[listedIn := [p.id]], "", "");
    assert s.postsByChannel[listedIn][0] == p.id;
    RemovePostLeavesDanglingId(s, p, listedIn);
  }

  /** The removed post and its comments are listed, if anywhere, only in
      the channel the record names. */
  ghost predicate Confined(s: State, post: Post) {
    forall c, i :: c in s.postsByChannel && c != post.channelId && 0 <= i < |s.postsByChannel[c]| ==>
      s.postsByChannel[c][i] != post.id && !IsComment(s.posts, post.id, s.postsByChannel[c][i])
  }

  /** Under that condition removal keeps both store invariants. */
  lemma RemovePostKeepsValid(s: State, post: Post)
    requires Valid(s) && Confined(s, post)
    ensures Reduce(s, RemovePost(post)).Next?
    ensures Valid(Reduce(s, RemovePost(post)).state)
  {
    if post.id in s.posts {
      var posts := s.posts - {post.id};
      var rest := Rest(s, post);
      RestStored(s, post);
      RemovePostIsSkipFilter(s, post);
      SkipFilterSplits(posts, post.id, rest);
      var t := Reduce(s, RemovePost(post)).state;
      forall c | c in t.postsByChannel
        ensures AllIn(t.postsByChannel[c], t.posts) && NoDups(t.postsByChannel[c])
      {
        if c == post.channelId {
          var ids := t.postsByChannel[c];
          forall i | 0 <= i < |ids| ensures ids[i] in t.posts {
            assert ids[i] in Survivors(posts, post.id, rest);
            assert ids[i] in rest;
          }
        } else {
          var ids := t.postsByChannel[c];
          forall i | 0 <= i < |ids| ensures ids[i] in t.posts {
            assert ids[i] in posts;
            assert !IsComment(posts, post.id, ids[i]);
          }
        }
      }
    }
  }

  // ------------------------------------------------------- other record types

  /** Logout empties the store whatever it held. */
  lemma LogoutClears(s: State)
    ensures Reduce(s, LogoutSuccess) == Next(Empty)
  {
  }

  /** Selecting a post changes the selected id and nothing else. */
  lemma SelectChangesOnlySelection(s: State, postId: string)
    ensures Reduce(s, ReceivedPostSelected(postId)) == Next(s.(selectedPostId := postId))
  {
  }

  /** The record types the post reducer does not handle. */
  predicate PassThrough(a: Action) {
    a.Request? || a.Succeeded? || a.Failed? || a.LogError? || a.Unrecognised?
  }

  /** The default export returns its input state for every record that
      changes none of the four fields; with values, that is: such records
      leave the state equal to what it was. */
  lemma UnrecognisedIsNoOp(s: State, a: Action)
    requires PassThrough(a)
    ensures Reduce(s, a) == Next(s)
  {
  }

  /** The focused post id changes only on logout, and the selected id only
      on logout and on selection. */
  lemma FocusIdsChangeOnlyWhenAsked(s: State, a: Action)
    requires Reduce(s, a).Next?
    ensures var t := Reduce(s, a).state;
      && (t.currentFocusedPostId != s.currentFocusedPostId ==> a.LogoutSuccess?)
      && (t.selectedPostId != s.selectedPostId ==> a.LogoutSuccess? || a.ReceivedPostSelected?)
  {
  }

  /** A store never throws on a record that is not a batch or a removal. */
  lemma OnlyBatchAndRemovalThrow(s: State, a: Action)
    requires !a.ReceivedPosts? && !a.RemovePost?
    ensures Reduce(s, a).Next?
  {
  }

  // ---------------------------------------------------------- batched dispatch

  /** A batched dispatch is the dispatch of its first part followed by the
      dispatch of the rest, and a throw anywhere throws the whole batch. */
  lemma {:induction false} ReduceAllSplits(s: State, xs: seq<Action>, ys: seq<Action>)
    ensures ReduceAll(s, xs + ys) ==
      match ReduceAll(s, xs)
      case Throws => Throws
      case Next(t) => ReduceAll(t, ys)
    decreases |xs|
  {
    if xs != [] {
      assert (xs + ys)[0] == xs[0] && (xs + ys)[1..] == xs[1..] + ys;
      match Reduce(s, xs[0])
      case Throws =>
        assert ReduceAll(s, xs) == Throws;
        assert ReduceAll(s, xs + ys) == Throws;
      case Next(t) =>
        ReduceAllSplits(t, xs[1..], ys);
        assert ReduceAll(s, xs) == ReduceAll(t, xs[1..]);
        assert ReduceAll(s, xs + ys) == ReduceAll(t, xs[1..] + ys);
    } else {
      assert xs + ys == ys;
    }
  }

  /** Every record type keeps a valid store valid, except a removal whose
      post or comments another channel lists. */
  ghost predicate KeepsValidity(s: State, a: Action) {
    !a.RemovePost? || Confined(s, a.post)
  }

  lemma StepKeepsValid(s: State, a: Action)
    requires Valid(s) && KeepsValidity(s, a)
    ensures Reduce(s, a).Next? && Valid(Reduce(s, a).state)
  {
    match a
    case ReceivedPost(post) =>
      ReceivedPostKeepsValid(s, post);
    case ReceivedPosts(list, channelId) =>
      ReceivedPostsKeepsValid(s, list, channelId);
    case PostDeleted(post) =>
      PostDeletedKeepsValid(s, post);
    case RemovePost(post) =>
      RemovePostKeepsValid(s, post);
    case _ =>
  }

  /** A batch of records without removals never throws on a valid store
      and leaves it valid. */
  lemma {:induction false} BatchWithoutRemovalKeepsValid(s: State, actions: seq<Action>)
    requires Valid(s)
    requires forall i :: 0 <= i < |actions| ==> !actions[i].RemovePost?
    ensures ReduceAll(s, actions).Next? && Valid(ReduceAll(s, actions).state)
    decreases |actions|
  {
    if actions != [] {
      StepKeepsValid(s, actions[0]);
      BatchWithoutRemovalKeepsValid(Reduce(s, actions[0]).state, actions[1..]);
    }
  }
}
